=== FILE: README.md ===
# DeepLIO network core, modelled in Dafny

DeepLIO estimates odometry from lidar images and IMU measurements. A network
(`DeepLIO`) chains up to four optional feature stages (lidar, IMU, fusion,
odometry) and ends in two linear regression heads: a 3-vector position and a
4-vector orientation per window. This project models the parts of that core
whose behaviour does not depend on learned weights:

- how the IMU feature nets (`ImuFeatFC`, `ImufeatRNN0`, `ImuFeatRnn1`) read
  their configuration, which layers they build, and which output shape
  they declare (`ImuConfig`);
- how each IMU net walks its `[batch, seq, window, sample]` input, which
  vector it keeps per window, and how these vectors become a
  `[batch, seq_size, H]` feature tensor (`ImuForward`). The learned parts
  are function parameters, known only through the widths the framework
  guarantees for them;
- the fusion layer: its declared width, concatenation along the feature
  axis, and its refusal of other fusion types (`Fusion`). Its
  `get_output_shape` is the `outputShape` field;
- `DeepLIO.initialize`, `forward` (at the level of shapes) and
  `get_feat_networks` (`DeepLio`);
- the training bookkeeping `AverageMeter` and `ProgressMeter` (`Meters`);
- the image geometry and channel count computed by `Worker.__init__`
  (`WorkerGeometry`).

Python exceptions are modelled as `Result` values (`Wrappers`). A
configuration dictionary is a `map<string, CfgValue>`, and the reads the
source makes from it (`cfg[k]`, `cfg.get(k, d)`, `len`, `.lower()`) are in
`Config` and `Text`. Tensors are nested sequences with a validity predicate.
`torch.stack` and `view(d0, d1, -1)` are in `Tensors`.

Some behaviour of the code that a reader might not expect, and which the
model follows:

- The batch counter of `ProgressMeter` is padded with spaces, because
  `'{:Wd}'` right-aligns. It is not zero-padded.
- `AverageMeter.reset` sets `avg` to 0. Printing a meter before any update
  is therefore well defined. Only an update that brings `count` to zero
  divides by zero.
- The recurrent nets read `cfg['type']`, so a missing `type` key raises
  `KeyError`. Only an unknown *value* falls back to LSTM.
- `ImuFeatFC.forward` walks `len(x[0])` windows in every sequence but views
  the result as `[batch, seq_size, -1]`. With other window counts the view
  either fails or mixes windows across sequences. `FcForward` models exactly
  this.
- `ImuFeatRnn1.forward` regroups the window vectors by their position in
  the flattened list, not by the sequence they came from
  (`Rnn1ForwardRegroups`). The two agree when every sequence holds
  `seq_size` windows (`Rnn1ForwardWindows`).

## Model

| member | source | states |
|---|---|---|
| Config.Require | deeplio/models/nets/imu_feat_nets.py:12-13 | `cfg[key]` yields the stored value and raises `KeyError(key)` for a missing key |
| Config.Get | deeplio/models/nets/imu_feat_nets.py:14 | `cfg.get(key, d)` yields the stored value, or `d` when the key is missing |
| Config.AsNumber | deeplio/models/nets/imu_feat_nets.py:32 | a value compared with a number is an int, a float or a bool (counted as 0 or 1); anything else raises `TypeError` |
| Config.AsInt | deeplio/models/nets/imu_feat_nets.py:27-29 | a size handed to a layer is an int or a bool, with the same numeric value; anything else raises `TypeError` |
| Config.Items | deeplio/models/nets/imu_feat_nets.py:24-29 | `len` and indexing see the elements of a list or the one-character strings of a string; any other value raises `TypeError` |
| Config.AsString | deeplio/models/nets/imu_feat_nets.py:57 | `.lower()` exists only on a string; anything else raises `AttributeError` |
| Config.Len | deeplio/models/worker.py:60 | `len` of a list or string is its item count; other values raise `TypeError` |
| Config.Truthy | deeplio/models/nets/imu_feat_nets.py:59-70 | the truth value of `bidirectional` (used by the layer and by `2 if self.bidirectional else 1`): a number is true iff it is non-zero, a list or string iff it is non-empty |
| Text.Lower | deeplio/models/nets/imu_feat_nets.py:57 | `.lower()` keeps the length, maps every upper-case ASCII letter to its lower-case letter, keeps every other character, and leaves no upper-case letter |
| Text.LowerIdempotent | deeplio/models/nets/imu_feat_nets.py:57 | lower-casing an already lower-cased type changes nothing |
| Text.NatToString | deeplio/models/worker.py:162 | `str(n)` of a natural number is a non-empty run of decimal digits |
| Text.ParseNatToString | deeplio/models/worker.py:162-164 | reading back the decimal digits of `str(n)` gives `n` |
| Text.NatToStringInjective | deeplio/models/worker.py:162-164 | different numbers have different decimal texts |
| Text.DigitsMonotone | deeplio/models/worker.py:162 | a number no larger than `N` has no more digits than `N` |
| Text.PadLeft | deeplio/models/worker.py:163 | `'{:Wd}'` gives the text right-aligned in at least `W` columns, with spaces before it |
| Text.TrimPadLeft | deeplio/models/worker.py:163 | stripping the leading spaces of right-aligned text that starts with a non-space gives the text back |
| Text.SplitJoin | deeplio/models/worker.py:156-159 | splitting a `'\t'.join` of tab-free entries on tabs gives back the entries |
| Tensors.Stack | deeplio/models/nets/imu_feat_nets.py:49 | `torch.stack` succeeds exactly on a non-empty list of equal-width rows, and then gives their width |
| Tensors.ViewAs3 | deeplio/models/nets/imu_feat_nets.py:50 | `view(d0, d1, -1)` succeeds exactly when `d0*d1` is positive and divides the element count (zero elements included), and otherwise raises `RuntimeError`; the element count is kept |
| Tensors.GroupFlatten | deeplio/models/nets/imu_feat_nets.py:118-130 | cutting a flattened list of equal-length lists back into runs of that length gives the lists back |
| Tensors.GroupPointwise | deeplio/models/nets/imu_feat_nets.py:119-130 | a relation between every flattened item and the row at its position holds between each item and the row regrouped to its place |
| Tensors.ViewOfRowsGroups | deeplio/models/nets/imu_feat_nets.py:49-50 | stacking `d0*d1` rows and viewing them as `[d0, d1, -1]` cuts the rows into `d0` runs of `d1`, in batch-major order |
| ImuConfig.NewBase | deeplio/models/nets/imu_feat_nets.py:9-18 | `dropout` and `input-size` are required (`KeyError`, in that order) and kept unchecked; `num-layers` defaults to 2 |
| ImuConfig.NewLinear | deeplio/models/nets/imu_feat_nets.py:27-29 | `nn.Linear(a, b)` is built exactly when both widths are non-negative ints; a non-int raises `TypeError`, a negative int `RuntimeError` |
| ImuConfig.ChainFrom | deeplio/models/nets/imu_feat_nets.py:27-30 | building the layers from index `k` on succeeds exactly when every one of them builds, gives layer `i` at position `i-k`, and otherwise fails with the error of the first layer that does not build |
| ImuConfig.LinearChain | deeplio/models/nets/imu_feat_nets.py:27-30 | the first linear layer maps the input width to `hidden[0]` and layer `i` maps `hidden[i-1]` to `hidden[i]`; the chain builds exactly when every layer does |
| ImuConfig.LinearChainFirstError | deeplio/models/nets/imu_feat_nets.py:27-30 | a failed chain fails with the error of some layer all of whose predecessors were built |
| ImuConfig.DropoutTail | deeplio/models/nets/imu_feat_nets.py:32-33 | `p > 0.` needs a number (`TypeError`); a probability above 1 raises `ValueError`; one dropout layer is added exactly when `p > 0` |
| ImuConfig.NewImuFeatFc | deeplio/models/nets/imu_feat_nets.py:21-36 | errors come in source order (base keys, a `hidden-size` without `len`, an empty list at `hidden_size[0]`, the first bad linear layer, the dropout); `hidden-size` defaults to `[6, 6]`; the declared shape is `[1, seq_size, hidden[-1]]` |
| ImuConfig.FcLayers | deeplio/models/nets/imu_feat_nets.py:24-36 | the layer list is the linear chain followed by the dropout tail; the chain fails before the dropout is looked at |
| ImuConfig.FcLayersAt | deeplio/models/nets/imu_feat_nets.py:27-33 | layer 0 maps the sample width to `hidden[0]`, layer `i` maps `hidden[i-1]` to `hidden[i]`, and the last layer is a dropout exactly when `p > 0` |
| ImuConfig.FcLayersOf | deeplio/models/nets/imu_feat_nets.py:21-36 | every built FC net has that layer list and declares its last hidden width |
| ImuConfig.StackComposes | deeplio/models/nets/imu_feat_nets.py:27-36 | in such a layer list consecutive linear layers agree on widths, the last linear layer yields the declared width, and a dropout can only come last |
| ImuConfig.FcLayersCompose | deeplio/models/nets/imu_feat_nets.py:24-36 | in a built FC net consecutive linear layers agree on widths; the last one yields the declared width; a dropout can only be last |
| ImuConfig.CellFor | deeplio/models/nets/imu_feat_nets.py:57-68 | the cell is a GRU exactly when the lower-cased type is `gru`, and an LSTM otherwise |
| ImuConfig.CheckRnnArgs | deeplio/models/nets/imu_feat_nets.py:62-68 | the recurrent layer checks, in order, the dropout (a list fails `float` with `TypeError`, any other non-probability is a `ValueError`), `hidden_size` (`TypeError`, then `ValueError`), `num_layers` (`TypeError`, `ValueError`, a float `TypeError`) and `input_size` (`TypeError`, then `RuntimeError`); it is built exactly when all pass |
| ImuConfig.NewImuFeatRnn | deeplio/models/nets/imu_feat_nets.py:54-71 | after the base keys, `type` is required (`KeyError`) and must be a string (`AttributeError`); then the layer checks; `hidden-size` defaults to 6, `bidirectional` to false and is used for its truth value; `num_dir` is 2 exactly when bidirectional; the declared shape is `[1, seq_size, hidden_size]` |
| ImuConfig.NewImufeatRnn0 | deeplio/models/nets/imu_feat_nets.py:54-71 | RNN0 builds a batch-first layer and accepts exactly the configurations the shared constructor accepts |
| ImuConfig.NewImuFeatRnn1 | deeplio/models/nets/imu_feat_nets.py:101-116 | RNN1 builds a sequence-first layer and accepts exactly the configurations the shared constructor accepts |
| ImuConfig.CellChoiceExamples | deeplio/models/nets/imu_feat_nets.py:104-113 | `GRU` and `Gru` select a GRU; `lstm`, `rnn` and the empty string select an LSTM |
| ImuConfig.RnnDefaults | deeplio/models/nets/imu_feat_nets.py:54-71 | with only the required keys, a recurrent net is built exactly when the dropout lies in [0, 1] (otherwise `ValueError`), and is unidirectional, with width 6 and 2 layers |
| ImuConfig.RnnListDropout | deeplio/models/nets/imu_feat_nets.py:62-68 | a list given as the dropout reaches the recurrent layer, which refuses it with `TypeError` |
| ImuForward.SumRowsAppend | deeplio/models/nets/imu_feat_nets.py:48 | the sum over two runs of samples is the sum of the two sums |
| ImuForward.SumRowsPermutation | deeplio/models/nets/imu_feat_nets.py:48 | the pooled sum over a window does not depend on the order of its samples |
| ImuForward.FcWindow | deeplio/models/nets/imu_feat_nets.py:45-48 | a window whose sample width is `input_size` pools to a `hidden[-1]`-wide vector (zeros when it has no samples); any other width raises `RuntimeError`, also for a window without samples |
| ImuForward.FcSteps | deeplio/models/nets/imu_feat_nets.py:44-48 | the inner loop succeeds exactly when the sequence is long enough and its walked windows are well formed; it raises `IndexError` for a short sequence and `RuntimeError` for a bad window; one pooled vector per window |
| ImuForward.FcBatches | deeplio/models/nets/imu_feat_nets.py:43-48 | the outer loop succeeds exactly when every sequence does; a failure is one sequence's own failure |
| ImuForward.FcForward | deeplio/models/nets/imu_feat_nets.py:38-51 | an empty batch raises `IndexError`; on success every sequence has at least `len(x[0])` windows, all walked windows are well formed, and the result is a valid `[batch, seq_size, _]` tensor with as many entries as the walked windows give |
| ImuForward.FcForwardRegroups | deeplio/models/nets/imu_feat_nets.py:38-51 | when `x[0]` holds `seq_size` windows and the walk succeeds, the result is the list of pooled vectors, batch-major, cut into runs of `seq_size` |
| ImuForward.FcForwardWindows | deeplio/models/nets/imu_feat_nets.py:38-51 | with `seq_size` well-formed windows per sequence, the result is `[B, seq_size, hidden[-1]]` and entry `[b][s]` pools window `x[b][s]` |
| ImuForward.FcForwardMatchesDeclared | deeplio/models/nets/imu_feat_nets.py:36-51 | a built FC net produces features of the shape it declares |
| ImuForward.Slice | deeplio/models/nets/imu_feat_nets.py:78 | `x[:, k]` is step `k` of every sequence of the batch |
| ImuForward.Rnn0Forward | deeplio/models/nets/imu_feat_nets.py:73-81 | RNN0 succeeds exactly when there are no steps, or the samples have width `input_size` and every window is non-empty; otherwise the layer raises `RuntimeError`; the result is `[b, s, H]`, and column `k` is the forward half of the last output of step `k`, run with the state carried from step `k-1` |
| ImuForward.SetColumn | deeplio/models/nets/imu_feat_nets.py:80 | `outputs[:, seq, :] = v` writes entry `[i][seq]` from `v[i]` and keeps every other entry |
| ImuForward.UnidirectionalKeepsLastOutput | deeplio/models/nets/imu_feat_nets.py:79-80 | with one direction, the kept vector is the whole last output |
| ImuForward.StateDependsOnPrefix | deeplio/models/nets/imu_feat_nets.py:75-78 | the state carried into step `k` depends only on the steps before `k` |
| ImuForward.Rnn1Window | deeplio/models/nets/imu_feat_nets.py:122-127 | one window yields the forward half of its last output row; a bad sample width or an empty window raises `RuntimeError` |
| ImuForward.Rnn1Rows | deeplio/models/nets/imu_feat_nets.py:120-127 | the window loop succeeds exactly when every window does, gives one vector per window in order, and otherwise fails with some window's own error |
| ImuForward.Rnn1Forward | deeplio/models/nets/imu_feat_nets.py:118-130 | no windows at all raises `RuntimeError`; on success every window succeeded and the result is `[batch, seq_size, _]` holding all window vectors |
| ImuForward.Rnn1ForwardRegroups | deeplio/models/nets/imu_feat_nets.py:128-130 | the result is the flattened list of window vectors cut into runs of `seq_size` |
| ImuForward.RowsOfWindows | deeplio/models/nets/imu_feat_nets.py:118-130 | with `seq_size` windows per sequence, every window succeeds and the regrouped vector at `[b][s]` is the vector of window `x[b][s]` |
| ImuForward.Rnn1ForwardWindows | deeplio/models/nets/imu_feat_nets.py:118-130 | with `seq_size` windows per sequence, entry `[b][s]` is the vector of window `x[b][s]` |
| ImuForward.Rnn1ForwardMatchesDeclared | deeplio/models/nets/imu_feat_nets.py:116-130 | a built RNN1 net produces features of the shape it declares |
| Fusion.WidthSum | deeplio/models/nets/deeplio_nets.py:115-116 | summing the third input dimensions succeeds exactly when every shape has three dimensions, and raises `IndexError` otherwise |
| Fusion.WidthSumAppend | deeplio/models/nets/deeplio_nets.py:115-116 | the width sum over a concatenation of shape lists is the sum of their width sums |
| Fusion.NewFusionLayer | deeplio/models/nets/deeplio_nets.py:104-116 | a `type` that is not a string raises `AttributeError` at `.lower()` before the shapes are read; then a shape of rank below 3 raises `IndexError`; otherwise the type defaults to `cat` and is lower-cased, and the declared shape is `[1, seq_size, width sum]` |
| Fusion.DeclaredWidthOfPair | deeplio/models/nets/deeplio_nets.py:115-116 | for lidar and IMU inputs, the declared width is the lidar width plus the IMU width |
| Fusion.Cat | deeplio/models/nets/deeplio_nets.py:122 | concatenation gives `[B, S, a+b]`, and every row splits back into the two inputs |
| Fusion.Forward | deeplio/models/nets/deeplio_nets.py:118-125 | a non-`cat` type raises `NotImplementedError`; a missing feature raises `TypeError`; it succeeds exactly when batch and step counts agree, giving each row as lidar followed by IMU |
| Fusion.ForwardSplits | deeplio/models/nets/deeplio_nets.py:122 | splitting a fused row at the lidar width gives back both inputs |
| Fusion.CatDims | deeplio/models/nets/deeplio_nets.py:122 | `cat` on shapes succeeds exactly when the ranks agree, are at least 3, and all non-feature dimensions agree |
| Fusion.ForwardDims | deeplio/models/nets/deeplio_nets.py:118-125 | the shape-level forward raises the same errors for the type and missing inputs, and otherwise is `cat` on shapes |
| Fusion.ForwardDimsAgrees | deeplio/models/nets/deeplio_nets.py:118-125 | the shape-level forward fails exactly when the content forward does, with the same error, and otherwise predicts its shape |
| DeepLio.NewDeepLio | deeplio/models/nets/deeplio_nets.py:28-44 | a missing `deeplio` section raises `KeyError('deeplio')`; the dropout defaults to 0 and is otherwise the configured number; every stage starts absent |
| DeepLio.FeatNets | deeplio/models/nets/deeplio_nets.py:47 | `feat_nets` has four slots, odometry, fusion, IMU, lidar, each filled exactly when that stage is present, with that stage's declared shape |
| DeepLio.FirstIndex | deeplio/models/nets/deeplio_nets.py:49-52 | the search loop stops at the first present entry; every entry before it is absent |
| DeepLio.Initialize | deeplio/models/nets/deeplio_nets.py:46-59 | no present stage raises `AttributeError`, a declared shape below rank 3 `IndexError`, and `p > 1` `ValueError` from `nn.Dropout`; otherwise both heads take the third declared dimension of the first present stage, and the dropout is `Dropout(p)` exactly when `p > 0` |
| DeepLio.FirstPresentIsPriority | deeplio/models/nets/deeplio_nets.py:47-52 | the search loop finds the stage named by the priority odometry, fusion, IMU, lidar |
| DeepLio.InitializePriority | deeplio/models/nets/deeplio_nets.py:46-59 | the heads are sized from the odometry net if present, else the fusion layer, else the IMU net, else the lidar net |
| DeepLio.GetFeatNetworks | deeplio/models/nets/deeplio_nets.py:95-100 | at most one network comes out per stage slot |
| DeepLio.GetFeatNetworksFirst | deeplio/models/nets/deeplio_nets.py:95-100 | the list of networks is non-empty exactly when some stage is present, and its head is the stage the `initialize` search loop finds |
| DeepLio.GetFeatNetworksMembers | deeplio/models/nets/deeplio_nets.py:95-100 | exactly the present entries come out |
| DeepLio.GetFeatNetworksOf | deeplio/models/nets/deeplio_nets.py:95-100 | before `initialize` sets `feat_nets` the loop raises `TypeError`; afterwards exactly the present entries come out |
| DeepLio.FeatNetworksAfterInitialize | deeplio/models/nets/deeplio_nets.py:46-53 | once `initialize` has set `feat_nets`, the networks are led by the stage the heads are sized from, and there are none exactly when `initialize` fails for want of a stage |
| DeepLio.GetFeatNetworksAppend | deeplio/models/nets/deeplio_nets.py:95-100 | filtering keeps list order: filtering a concatenation concatenates the filtered parts |
| DeepLio.FeatNetworksInOrder | deeplio/models/nets/deeplio_nets.py:95-100 | the networks come out as the present ones among odometry, fusion, IMU and lidar, in that order |
| DeepLio.RunStage | deeplio/models/nets/deeplio_nets.py:66-74 | an absent stage gives `None`; a present one gives its output, or raises what the net raises |
| DeepLio.ThreadUpToFusion | deeplio/models/nets/deeplio_nets.py:61-79 | a lidar error comes first, then an IMU error; a present fusion layer receives exactly the lidar and IMU features (`None` for an absent one) and its result is the last feature; otherwise the last feature is that of IMU, else lidar, else none |
| DeepLio.ThreadFeatures | deeplio/models/nets/deeplio_nets.py:61-84 | a present odometry net receives the last feature of the stages before it and its output is the last feature; a last feature exists exactly when some stage is present, and it comes from the stage `initialize` sized the heads from |
| DeepLio.OdometryReceivesFeature | deeplio/models/nets/deeplio_nets.py:81-84 | the odometry net receives exactly what the same network without it would have produced |
| DeepLio.ApplyLayer | deeplio/models/nets/deeplio_nets.py:88-92 | a linear layer accepts exactly its input width and yields its output width; dropout keeps the shape |
| DeepLio.Head | deeplio/models/nets/deeplio_nets.py:86-93 | a missing feature raises `AttributeError`, rank below 2 `ValueError`, `b*s == 0` `RuntimeError`, missing heads or dropout `TypeError`; otherwise it succeeds exactly when both heads take the per-row element count, giving `[b*s, 3]` and `[b*s, 4]` |
| DeepLio.Forward | deeplio/models/nets/deeplio_nets.py:61-93 | with no stage the forward raises `AttributeError`; on success the last feature has rank at least 2 and both outputs have `b*s` rows, `b, s` its first two dimensions, with 3 and 4 columns |
| DeepLio.ForwardShapes | deeplio/models/nets/deeplio_nets.py:46-93 | when every present stage honours its declared width and `b*s > 0`, the forward after `initialize` yields exactly `[b*s, 3]` and `[b*s, 4]` |
| DeepLio.ImuOnlyExample | deeplio/models/nets/deeplio_nets.py:46-93 | an IMU-only network of width 6 on 2 by 3 windows yields `[6, 3]` and `[6, 4]` |
| Meters.Reset | deeplio/models/worker.py:116-120 | `reset` zeroes every statistic and keeps the name and format |
| Meters.NewAverageMeter | deeplio/models/worker.py:111-114 | the format defaults to `:f`, and a new meter starts reset |
| Meters.Update | deeplio/models/worker.py:122-126 | `n` defaults to 1; `val`, `sum` and `count` are updated first; a zero count then raises `ZeroDivisionError` and keeps the old `avg`; otherwise `avg * count == sum` |
| Meters.UpdateKeepsConsistent | deeplio/models/worker.py:122-126 | an update that does not bring the count to zero leaves the meter consistent |
| Meters.UpdateAll | deeplio/models/worker.py:122-126 | a run of updates keeps the name and format, and no updates change nothing |
| Meters.RunningMean | deeplio/models/worker.py:116-126 | after `reset` and updates whose running count never returns to zero, `sum` and `count` are the totals, `val` is the last value, and `avg` is the weighted mean |
| Meters.MeterText | deeplio/models/worker.py:128-130 | `str(meter)` is the name, a space, the rendered value, ` (`, the rendered average and `)`, each at its own place |
| Meters.MeterTextSplits | deeplio/models/worker.py:128-130 | when name and rendered numbers hold no space, splitting the text on spaces gives the name, the value and the parenthesised average |
| Meters.MeterTextTabFree | deeplio/models/worker.py:128-130 | a meter's text holds no tab unless its name or a rendered number does |
| Meters.GetBatchFmtStr | deeplio/models/worker.py:161-164 | the counter width is the length of `str(num_batches)` (a minus sign included), and the total is `str(num_batches)` |
| Meters.CounterOfBatch | deeplio/models/worker.py:161-164 | the counter of batch `k <= N` is `str(k)` padded to the width of `str(N)` |
| Meters.BracketLayout | deeplio/models/worker.py:163-164 | in `[padded/total]` with a field of width `w`, the text sits right-aligned after the bracket, preceded only by spaces |
| Meters.CounterAligned | deeplio/models/worker.py:161-164 | every counter of an epoch has length `2w+3`, where `w` is the digit count of `N`: after the bracket come spaces, then `str(k)` ending just before the slash |
| Meters.FieldReadsBack | deeplio/models/worker.py:163-164 | stripping the leading spaces from the field of `[padded/total]` gives back the number text |
| Meters.BatchFits | deeplio/models/worker.py:161-164 | every batch number up to `N` fits the counter width |
| Meters.FieldParses | deeplio/models/worker.py:163-164 | the field of a counter that fits `str(n)`, stripped of its aligning spaces, is a decimal that reads back as `n` |
| Meters.NewProgressMeter | deeplio/models/worker.py:150-154 | the progress meter keeps the counter format for `num_batches`, the meters and the prefix |
| Meters.Entries | deeplio/models/worker.py:156-158 | the first entry is the prefix plus the counter, followed by one entry per meter, in order |
| Meters.CounterTabFree | deeplio/models/worker.py:161-164 | the batch counter holds no tab |
| Meters.Display | deeplio/models/worker.py:156-159 | the line starts with the prefix and the batch counter; with meters, a tab and the first meter's text follow |
| Meters.DisplaySplits | deeplio/models/worker.py:156-159 | when the prefix, names and rendered numbers hold no tab, splitting the displayed line on tabs gives back the entries |
| WorkerGeometry.CropFactors | deeplio/models/worker.py:55 | no crop by default; the value must have a `len` (`TypeError`) and exactly two items (`ValueError`), which are the crop factors |
| WorkerGeometry.ModelDim | deeplio/models/worker.py:57-58 | `im - 2 * crop` needs two numbers (`TypeError` otherwise), and the model dimension plus twice the crop is the image dimension |
| WorkerGeometry.ChannelCount | deeplio/models/worker.py:60-63 | the channel count is never 6 and never exceeds the configured count |
| WorkerGeometry.ChannelCountPreimage | deeplio/models/worker.py:60-63 | only six channels change, and three model channels come from exactly 3 or 6 configured ones |
| WorkerGeometry.NewGeometry | deeplio/models/worker.py:55-63 | errors come in source order: crop unpacking, `KeyError` for `image-height` then `image-width`, a non-number `TypeError`, `KeyError` for `channels`, a `len`-less value `TypeError`; on success the model image plus twice the crop is the image |
| WorkerGeometry.CropShrinks | deeplio/models/worker.py:55-58 | without crop factors the model sees the whole image; a non-negative crop shrinks a dimension exactly when it is positive |

## Left out

- `ImufeatRNN0.forward2` is an unused alternative forward. It is not modelled.
- The numerics of `nn.Linear`, `leaky_relu`, `nn.GRU`, `nn.LSTM` and `nn.Dropout`, including dropout randomness, are left out. They are function parameters known only through their widths (`StackWidths`, `BatchFirstWidths`, `WindowWidths`).
- Floating point is modelled as exact `real` arithmetic.
- Python's number formatting under a format spec such as `:f` is the `render` parameter of `Meters.MeterText`.
- The lidar and odometry feature nets are known only through their declared and produced shapes.
- Logging, the tensorboard writer, output folders, timestamps, `Worker.close`, `set_seed` and `worker_init_fn` are I/O or randomness, and are not modelled.
- `PredDisplay` is display-only state. It is not modelled.
- The shared configuration container that supplies `seq_size` is a parameter.
- ImuForward.Rnn0Forward: an input whose rank is not 4 fails the unpacking `b, s, t, n = x.shape` with `ValueError`. The model's `Tensor4` input has rank 4 by construction, so this is not modelled.
- ImuForward.Rnn0Forward: a batch of zero sequences is handed to the recurrent layer like any other; whether the framework accepts an empty batch is not modelled.
- ImuForward.Rnn1Forward: the recurrent layer is assumed to accept every window of `input_size`-wide samples; framework limits beyond width and emptiness are not modelled.
- Text.Lower: lower-cases ASCII letters only; Unicode case mapping is not modelled.
- WorkerGeometry.NewGeometry: Python ints and floats are both held as `real`, so the type of the computed image size (int or float) is not kept.
- DeepLio.NewDeepLio: a dropout that is not a number is refused by the constructor with `TypeError`; the source stores it and fails only later, at `self.p > 0`. A `deeplio` section that is not a dictionary is not modelled, because sections are dictionaries in the model.
- Meters.NewProgressMeter: keeps a snapshot of the meters. Python shares live references, so its `display` shows their state at call time; the model displays the snapshot.

=== FILE: config.dfy ===
/** Reading values out of a configuration dictionary (the YAML-loaded
    `dict`s the nets and the worker are built from): a missing key is a
    `KeyError`, a value of the wrong Python type fails where it is used. */
module Config {
  import opened Wrappers

  /** A configuration value, by its Python type. */
  datatype CfgValue = IntV(i: int) | RealV(r: real) | StrV(s: string) | BoolV(b: bool) | ListV(items: seq<CfgValue>)

  type Cfg = map<string, CfgValue>

  /** `cfg[key]`. */
  function Require(cfg: Cfg, key: string): (r: Result<CfgValue>)
    ensures key in cfg ==> r == Ok(cfg[key])
    ensures key !in cfg ==> r == Err(KeyError(key))
  {
    if key in cfg then Ok(cfg[key]) else Err(KeyError(key))
  }

  /** `cfg.get(key, default)`. */
  function Get(cfg: Cfg, key: string, default: CfgValue): (r: CfgValue)
    ensures key in cfg ==> r == cfg[key]
    ensures key !in cfg ==> r == default
  {
    if key in cfg then cfg[key] else default
  }

  /** A value used as a number (`p > 0.`, `h - 2 * c`): a Python int, float
      or bool, where a bool counts as 0 or 1; anything else is a `TypeError`. */
  function AsNumber(v: CfgValue): (r: Result<real>)
    ensures r.Ok? <==> v.IntV? || v.RealV? || v.BoolV?
    ensures v.IntV? ==> r == Ok(v.i as real)
    ensures v.RealV? ==> r == Ok(v.r)
    ensures v.BoolV? ==> r == Ok(if v.b then 1.0 else 0.0)
    ensures r.Err? ==> r.error == TypeError
  {
    match v
    case IntV(i) => Ok(i as real)
    case RealV(x) => Ok(x)
    case BoolV(b) => Ok(if b then 1.0 else 0.0)
    case _ => Err(TypeError)
  }

  /** A value used where an `int` is required (a tensor size, `range`): an
      int, or a bool, which Python treats as an int. */
  function AsInt(v: CfgValue): (r: Result<int>)
    ensures r.Ok? <==> v.IntV? || v.BoolV?
    ensures r.Ok? ==> r.value as real == AsNumber(v).value
    ensures r.Err? ==> r.error == TypeError
  {
    match v
    case IntV(i) => Ok(i)
    case BoolV(b) => Ok(if b then 1 else 0)
    case _ => Err(TypeError)
  }

  /** Python truthiness (`if v`, `2 if v else 1`): false, zero and empty
      values are false, everything else is true. */
  predicate Truthy(v: CfgValue): (b: bool)
    ensures v.BoolV? ==> (b <==> v.b)
    ensures AsNumber(v).Ok? ==> (b <==> AsNumber(v).value != 0.0)
    ensures Len(v).Ok? ==> (b <==> Len(v).value > 0)
  {
    match v
    case BoolV(b) => b
    case IntV(i) => i != 0
    case RealV(x) => x != 0.0
    case StrV(s) => |s| > 0
    case ListV(items) => |items| > 0
  }

  /** The items of a value that supports `len` and indexing: the elements of
      a list, the one-character strings of a string; any other value has no
      `len`. */
  function Items(v: CfgValue): (r: Result<seq<CfgValue>>)
    ensures r.Ok? <==> v.ListV? || v.StrV?
    ensures v.ListV? ==> r == Ok(v.items)
    ensures v.StrV? ==> r.Ok? && |r.value| == |v.s| && forall k :: 0 <= k < |v.s| ==> r.value[k] == StrV([v.s[k]])
    ensures r.Err? ==> r.error == TypeError
  {
    match v
    case ListV(items) => Ok(items)
    case StrV(s) => Ok(seq(|s|, k requires 0 <= k < |s| => StrV([s[k]])))
    case _ => Err(TypeError)
  }

  /** A string to lower-case; anything else has no `lower` attribute. */
  function AsString(v: CfgValue): (r: Result<string>)
    ensures r.Ok? <==> v.StrV?
    ensures r.Ok? ==> r.value == v.s
    ensures r.Err? ==> r.error == AttributeError
  {
    match v
    case StrV(s) => Ok(s)
    case _ => Err(AttributeError)
  }

  /** `len(v)`: defined for lists and strings. */
  function Len(v: CfgValue): (r: Result<nat>)
    ensures r.Ok? <==> v.ListV? || v.StrV?
    ensures v.ListV? ==> r == Ok(|v.items|)
    ensures v.StrV? ==> r == Ok(|v.s|)
    ensures r.Err? ==> r.error == TypeError
  {
    match v
    case ListV(items) => Ok(|items|)
    case StrV(s) => Ok(|s|)
    case _ => Err(TypeError)
  }
}

=== FILE: deeplio.dfy ===
/** `DeepLIO` (deeplio/models/nets/deeplio_nets.py) at the level of shapes:
    up to four optional feature stages (lidar, IMU, fusion, odometry), the
    choice of the stage whose declared width sizes the two regression heads,
    the threading of the last produced feature through the present stages,
    and the reshaping into `[b*s, 3]` and `[b*s, 4]` outputs.

    The lidar, IMU and odometry nets are known by their declared output shape
    and, at forward time, by the shape they produce (a `Behaviour`); the
    fusion layer is the one modelled in `Fusion`. */
module DeepLio {
  import opened Wrappers
  import opened Tensors
  import opened Fusion
  import opened Config

  datatype StageKind = OdomStage | FusionStage | ImuStage | LidarStage

  /** An entry of `feat_nets`: a feature net seen through its declared shape,
      or the fusion layer. */
  datatype Stage = Opaque(kind: StageKind, declared: Dims) | Fuse(layer: FusionLayer)

  function KindOf(st: Stage): StageKind {
    match st
    case Opaque(k, _) => k
    case Fuse(_) => FusionStage
  }

  /** `get_output_shape()` of a stage. */
  function OutputShape(st: Stage): Dims {
    match st
    case Opaque(_, d) => d
    case Fuse(layer) => layer.outputShape
  }

  /** The network: its dropout probability and its four optional stages. */
  datatype DeepLioNet = DeepLioNet(
    p: real,
    lidarFeatNet: Option<Dims>,
    imuFeatNet: Option<Dims>,
    fusionNet: Option<FusionLayer>,
    odomFeatNet: Option<Dims>)

  /** The constructor on the whole configuration, a dictionary of sections:
      the `deeplio` section is required, its dropout defaults to 0, and
      every stage starts absent. */
  function NewDeepLio(cfg: map<string, Cfg>): (r: Result<DeepLioNet>)
    ensures "deeplio" !in cfg ==> r == Err(KeyError("deeplio"))
    ensures "deeplio" in cfg && "dropout" !in cfg["deeplio"] ==> r.Ok? && r.value.p == 0.0
    ensures "deeplio" in cfg && "dropout" in cfg["deeplio"] && AsNumber(cfg["deeplio"]["dropout"]).Ok? ==>
              r.Ok? && r.value.p == AsNumber(cfg["deeplio"]["dropout"]).value
    ensures r.Ok? <==> "deeplio" in cfg && AsNumber(Get(cfg["deeplio"], "dropout", RealV(0.0))).Ok?
    ensures r.Ok? ==> r.value.lidarFeatNet.None? && r.value.imuFeatNet.None?
    ensures r.Ok? ==> r.value.fusionNet.None? && r.value.odomFeatNet.None?
  {
    if "deeplio" !in cfg then Err(KeyError("deeplio"))
    else
      var p :- AsNumber(Get(cfg["deeplio"], "dropout", RealV(0.0)));
      Ok(DeepLioNet(p, None, None, None, None))
  }

  function AsStage(net: Option<Dims>, kind: StageKind): Option<Stage> {
    match net
    case Some(d) => Some(Opaque(kind, d))
    case None => None
  }

  function FusionAsStage(net: Option<FusionLayer>): Option<Stage> {
    match net
    case Some(layer) => Some(Fuse(layer))
    case None => None
  }

  /** `feat_nets`, in the priority order odometry, fusion, IMU, lidar. */
  function FeatNets(m: DeepLioNet): (r: seq<Option<Stage>>)
    ensures |r| == 4
    ensures r[0].Some? <==> m.odomFeatNet.Some?
    ensures r[1].Some? <==> m.fusionNet.Some?
    ensures r[2].Some? <==> m.imuFeatNet.Some?
    ensures r[3].Some? <==> m.lidarFeatNet.Some?
    ensures r[0].Some? ==> KindOf(r[0].value) == OdomStage && OutputShape(r[0].value) == m.odomFeatNet.value
    ensures r[1].Some? ==> KindOf(r[1].value) == FusionStage && OutputShape(r[1].value) == m.fusionNet.value.outputShape
    ensures r[2].Some? ==> KindOf(r[2].value) == ImuStage && OutputShape(r[2].value) == m.imuFeatNet.value
    ensures r[3].Some? ==> KindOf(r[3].value) == LidarStage && OutputShape(r[3].value) == m.lidarFeatNet.value
  {
    [AsStage(m.odomFeatNet, OdomStage), FusionAsStage(m.fusionNet),
     AsStage(m.imuFeatNet, ImuStage), AsStage(m.lidarFeatNet, LidarStage)]
  }

  // ---------------------------------------------------------------------
  // initialize
  // ---------------------------------------------------------------------

  /** Where the search loop of `initialize` breaks: the first present entry,
      or the length of the list when every entry is absent. */
  function FirstIndex(nets: seq<Option<Stage>>): (k: nat)
    ensures k <= |nets|
    ensures forall j :: 0 <= j < k ==> nets[j].None?
    ensures k < |nets| ==> nets[k].Some?
  {
    if |nets| == 0 then 0
    else if nets[0].Some? then 0
    else 1 + FirstIndex(nets[1..])
  }

  /** `last_layer` after the search loop: `None` when no stage is present. */
  function FirstPresent(nets: seq<Option<Stage>>): Option<Stage> {
    var k := FirstIndex(nets);
    if k < |nets| then nets[k] else None
  }

  /** `fc_pos`: a linear layer onto the three position outputs. */
  type PosHead = l: Layer | l.Linear? && l.outFeatures == 3 witness Linear(0, 3)

  /** `fc_ori`: a linear layer onto the four orientation outputs. */
  type OriHead = l: Layer | l.Linear? && l.outFeatures == 4 witness Linear(0, 4)

  /** The regression heads and bookkeeping that `initialize` creates. */
  datatype Heads = Heads(drop: Option<Layer>, fcPos: PosHead, fcOri: OriHead, featNets: seq<Option<Stage>>)

  /** `initialize`: the heads take the third declared dimension of the first
      present stage in the order odometry, fusion, IMU, lidar. With no stage
      present `last_layer` stays `None` and the attribute lookup fails; a
      declared shape of fewer than three dimensions fails the indexing; a
      dropout layer is made when `p > 0`, and `nn.Dropout` refuses `p > 1`. */
  function Initialize(m: DeepLioNet): (r: Result<Heads>)
    ensures FirstPresent(FeatNets(m)).None? ==> r == Err(AttributeError)
    ensures FirstPresent(FeatNets(m)).Some? && |OutputShape(FirstPresent(FeatNets(m)).value)| < 3 ==>
              r == Err(IndexError)
    ensures FirstPresent(FeatNets(m)).Some? && |OutputShape(FirstPresent(FeatNets(m)).value)| >= 3 && m.p > 1.0 ==>
              r == Err(ValueError)
    ensures r.Ok? <==>
              FirstPresent(FeatNets(m)).Some? && |OutputShape(FirstPresent(FeatNets(m)).value)| >= 3 && m.p <= 1.0
    ensures r.Ok? ==> r.value.featNets == FeatNets(m)
    ensures r.Ok? ==>
              var w := OutputShape(FirstPresent(FeatNets(m)).value)[2];
              r.value.fcPos == Linear(w, 3) && r.value.fcOri == Linear(w, 4)
    ensures r.Ok? ==> r.value.drop == if m.p > 0.0 then Some(Dropout(m.p)) else None
  {
    var nets := FeatNets(m);
    var last := FirstPresent(nets);
    if last.None? then Err(AttributeError)
    else
      var shape := OutputShape(last.value);
      if |shape| < 3 then Err(IndexError)
      else if m.p > 1.0 then Err(ValueError)
      else
        var w := shape[2];
        var drop := if m.p > 0.0 then Some(Dropout(m.p)) else None;
        Ok(Heads(drop, Linear(w, 3), Linear(w, 4), nets))
  }

  /** The stage the heads are sized from, written as the priority rule itself. */
  function PriorityStage(m: DeepLioNet): Option<Stage> {
    if m.odomFeatNet.Some? then AsStage(m.odomFeatNet, OdomStage)
    else if m.fusionNet.Some? then FusionAsStage(m.fusionNet)
    else if m.imuFeatNet.Some? then AsStage(m.imuFeatNet, ImuStage)
    else AsStage(m.lidarFeatNet, LidarStage)
  }

  lemma FirstIndexCons(o: Option<Stage>, rest: seq<Option<Stage>>)
    ensures FirstIndex([o] + rest) == if o.Some? then 0 else 1 + FirstIndex(rest)
  {
    assert ([o] + rest)[1..] == rest;
  }

  /** The search loop over `feat_nets` finds the stage the priority rule names. */
  lemma FirstPresentIsPriority(m: DeepLioNet)
    ensures FirstPresent(FeatNets(m)) == PriorityStage(m)
  {
    var nets := FeatNets(m);
    FirstIndexCons(nets[3], []);
    FirstIndexCons(nets[2], [nets[3]]);
    FirstIndexCons(nets[1], [nets[2], nets[3]]);
    FirstIndexCons(nets[0], [nets[1], nets[2], nets[3]]);
    assert nets == [nets[0]] + [nets[1], nets[2], nets[3]];
    assert [nets[1], nets[2], nets[3]] == [nets[1]] + [nets[2], nets[3]];
    assert [nets[2], nets[3]] == [nets[2]] + [nets[3]];
    assert [nets[3]] == [nets[3]] + [];
  }

  /** `initialize` follows the priority odometry, fusion, IMU, lidar: both
      heads take the third declared dimension of the highest-priority present
      stage, and fail when there is none. */
  lemma InitializePriority(m: DeepLioNet)
    ensures FirstPresent(FeatNets(m)) == PriorityStage(m)
    ensures PriorityStage(m).None? <==> Initialize(m) == Err(AttributeError)
    ensures PriorityStage(m).Some? && |OutputShape(PriorityStage(m).value)| >= 3 && m.p <= 1.0 ==>
              var w := OutputShape(PriorityStage(m).value)[2];
              && Initialize(m).Ok?
              && Initialize(m).value.fcPos == Linear(w, 3)
              && Initialize(m).value.fcOri == Linear(w, 4)
    ensures m.odomFeatNet.Some? && Initialize(m).Ok? ==>
              Initialize(m).value.fcPos.inFeatures == m.odomFeatNet.value[2]
    ensures m.odomFeatNet.None? && m.fusionNet.Some? && Initialize(m).Ok? ==>
              Initialize(m).value.fcPos.inFeatures == m.fusionNet.value.outputShape[2]
    ensures m.odomFeatNet.None? && m.fusionNet.None? && m.imuFeatNet.Some? && Initialize(m).Ok? ==>
              Initialize(m).value.fcPos.inFeatures == m.imuFeatNet.value[2]
  {
    FirstPresentIsPriority(m);
  }

  // ---------------------------------------------------------------------
  // get_feat_networks
  // ---------------------------------------------------------------------

  function OptionToSeq(s: Option<Stage>): seq<Stage> {
    match s
    case Some(x) => [x]
    case None => []
  }

  /** `get_feat_networks`: the present entries of `feat_nets`, in order. */
  function GetFeatNetworks(nets: seq<Option<Stage>>): (r: seq<Stage>)
    ensures |r| <= |nets|
  {
    if |nets| == 0 then []
    else OptionToSeq(nets[0]) + GetFeatNetworks(nets[1..])
  }

  /** The first network returned is the stage `initialize` sizes the heads
      from, and there is one exactly when some stage is present. */
  lemma {:induction false} GetFeatNetworksFirst(nets: seq<Option<Stage>>)
    ensures |GetFeatNetworks(nets)| > 0 <==> FirstPresent(nets).Some?
    ensures |GetFeatNetworks(nets)| > 0 ==> GetFeatNetworks(nets)[0] == FirstPresent(nets).value
  {
    if |nets| > 0 {
      GetFeatNetworksFirst(nets[1..]);
      FirstIndexCons(nets[0], nets[1..]);
      assert nets == [nets[0]] + nets[1..];
      if nets[0].None? {
        var k := FirstIndex(nets[1..]);
        assert k < |nets[1..]| ==> nets[1 + k] == nets[1..][k];
      }
    }
  }

  /** Exactly the present stages come out: every output was present in the
      list, and every present entry is among the outputs. */
  lemma {:induction false} GetFeatNetworksMembers(nets: seq<Option<Stage>>)
    ensures forall k :: 0 <= k < |GetFeatNetworks(nets)| ==> Some(GetFeatNetworks(nets)[k]) in nets
    ensures forall i :: 0 <= i < |nets| && nets[i].Some? ==> nets[i].value in GetFeatNetworks(nets)
  {
    if |nets| > 0 {
      GetFeatNetworksMembers(nets[1..]);
      var r, rest := GetFeatNetworks(nets), GetFeatNetworks(nets[1..]);
      assert r == OptionToSeq(nets[0]) + rest;
      forall k | 0 <= k < |r|
        ensures Some(r[k]) in nets
      {
        if k >= |OptionToSeq(nets[0])| {
          assert r[k] == rest[k - |OptionToSeq(nets[0])|];
          assert Some(r[k]) in nets[1..];
        }
      }
      forall i | 0 <= i < |nets| && nets[i].Some?
        ensures nets[i].value in r
      {
        if i > 0 {
          assert nets[i] == nets[1..][i - 1];
        }
      }
    }
  }

  lemma GetFeatNetworksCons(o: Option<Stage>, rest: seq<Option<Stage>>)
    ensures GetFeatNetworks([o] + rest) == OptionToSeq(o) + GetFeatNetworks(rest)
  {
    assert ([o] + rest)[1..] == rest;
  }

  /** Filtering distributes over concatenation: the order of the list is kept. */
  lemma {:induction false} GetFeatNetworksAppend(a: seq<Option<Stage>>, b: seq<Option<Stage>>)
    ensures GetFeatNetworks(a + b) == GetFeatNetworks(a) + GetFeatNetworks(b)
  {
    if |a| == 0 {
      assert a + b == b;
    } else {
      var h, t := a[0], a[1..];
      calc {
        GetFeatNetworks(a + b);
        { assert a + b == [h] + (t + b); }
        GetFeatNetworks([h] + (t + b));
        { GetFeatNetworksCons(h, t + b); }
        OptionToSeq(h) + GetFeatNetworks(t + b);
        { GetFeatNetworksAppend(t, b); }
        OptionToSeq(h) + (GetFeatNetworks(t) + GetFeatNetworks(b));
        { GetFeatNetworksCons(h, t); assert a == [h] + t; }
        GetFeatNetworks(a) + GetFeatNetworks(b);
      }
    }
  }

  /** The networks come out as the present ones among odometry, fusion, IMU,
      lidar, in that order. */
  lemma FeatNetworksInOrder(m: DeepLioNet)
    ensures GetFeatNetworks(FeatNets(m)) ==
              OptionToSeq(AsStage(m.odomFeatNet, OdomStage)) + OptionToSeq(FusionAsStage(m.fusionNet))
              + OptionToSeq(AsStage(m.imuFeatNet, ImuStage)) + OptionToSeq(AsStage(m.lidarFeatNet, LidarStage))
  {
    var nets := FeatNets(m);
    forall o: Option<Stage> ensures GetFeatNetworks([o]) == OptionToSeq(o) {
      assert [o][1..] == [];
    }
    assert nets == [nets[0]] + [nets[1]] + [nets[2]] + [nets[3]];
    GetFeatNetworksAppend([nets[0]] + [nets[1]] + [nets[2]], [nets[3]]);
    GetFeatNetworksAppend([nets[0]] + [nets[1]], [nets[2]]);
    GetFeatNetworksAppend([nets[0]], [nets[1]]);
  }

  /** `get_feat_networks()` on the attribute `feat_nets`, which is `None`
      until `initialize` runs, so iterating it fails with `TypeError`.
      `initialize` sets the list on its first line, before anything in it
      can fail. Otherwise the present entries come out, and only those. */
  function GetFeatNetworksOf(featNets: Option<seq<Option<Stage>>>): (r: Result<seq<Stage>>)
    ensures featNets.None? <==> r == Err(TypeError)
    ensures featNets.Some? ==> r.Ok? && |r.value| <= |featNets.value|
    ensures featNets.Some? ==> forall k :: 0 <= k < |r.value| ==> Some(r.value[k]) in featNets.value
    ensures featNets.Some? ==> forall i :: 0 <= i < |featNets.value| && featNets.value[i].Some? ==>
              featNets.value[i].value in r.value
  {
    match featNets
    case None => Err(TypeError)
    case Some(nets) =>
      GetFeatNetworksMembers(nets);
      Ok(GetFeatNetworks(nets))
  }

  /** Once `initialize` has run, successfully or not, `get_feat_networks`
      returns the present stages, led by the one the heads are sized from;
      it returns none exactly when `initialize` failed for want of a stage. */
  lemma FeatNetworksAfterInitialize(m: DeepLioNet)
    ensures GetFeatNetworksOf(Some(FeatNets(m))).Ok?
    ensures var r := GetFeatNetworksOf(Some(FeatNets(m))).value;
            && (|r| == 0 <==> Initialize(m) == Err(AttributeError))
            && (|r| > 0 ==> r[0] == PriorityStage(m).value)
    ensures Initialize(m).Ok? ==>
              GetFeatNetworksOf(Some(Initialize(m).value.featNets)) == GetFeatNetworksOf(Some(FeatNets(m)))
  {
    GetFeatNetworksFirst(FeatNets(m));
    FirstPresentIsPriority(m);
  }

  // ---------------------------------------------------------------------
  // forward, shapes only
  // ---------------------------------------------------------------------

  /** What the lidar, IMU and odometry nets produce at forward time. The odometry
      net receives the last feature so far, which is `None` when it is the only
      stage. */
  datatype Behaviour<-L, -I> = Behaviour(
    lidar: L -> Result<Dims>,
    imu: I -> Result<Dims>,
    odom: Option<Dims> -> Result<Dims>)

  /** `x_last_feat` as a shape, with the stage that produced it. */
  datatype Feature = Feature(from: StageKind, dims: Dims)

  function FeatureDims(f: Option<Feature>): Option<Dims> {
    match f
    case Some(x) => Some(x.dims)
    case None => None
  }

  /** A feature stage at forward time: its output when present, `None`
      when absent. */
  function RunStage<X>(present: bool, net: X -> Result<Dims>, x: X): (r: Result<Option<Dims>>)
    ensures !present ==> r == Ok(None)
    ensures present && net(x).Err? ==> r == Err(net(x).error)
    ensures present && net(x).Ok? ==> r == Ok(Some(net(x).value))
  {
    if present then
      var d :- net(x);
      Ok(Some(d))
    else Ok(None)
  }

  /** `x_feat_lidar`. */
  function LidarOut<L, I>(m: DeepLioNet, beh: Behaviour<L, I>, lidarImgs: L): Result<Option<Dims>> {
    RunStage(m.lidarFeatNet.Some?, beh.lidar, lidarImgs)
  }

  /** `x_feat_imu`. */
  function ImuOut<L, I>(m: DeepLioNet, beh: Behaviour<L, I>, imuMeas: I): Result<Option<Dims>> {
    RunStage(m.imuFeatNet.Some?, beh.imu, imuMeas)
  }

  /** The stages of `forward` before odometry: lidar, then IMU, then the
      fusion layer given `[x_feat_lidar, x_feat_imu]` (`None` for an absent
      one); the last feature is that of the last present stage. */
  function ThreadUpToFusion<L, I>(m: DeepLioNet, beh: Behaviour<L, I>, lidarImgs: L, imuMeas: I)
    : (r: Result<Option<Feature>>)
    ensures LidarOut(m, beh, lidarImgs).Err? ==> r == Err(LidarOut(m, beh, lidarImgs).error)
    ensures LidarOut(m, beh, lidarImgs).Ok? && ImuOut(m, beh, imuMeas).Err? ==> r == Err(ImuOut(m, beh, imuMeas).error)
    ensures r.Ok? ==> LidarOut(m, beh, lidarImgs).Ok? && ImuOut(m, beh, imuMeas).Ok?
    ensures LidarOut(m, beh, lidarImgs).Ok? && ImuOut(m, beh, imuMeas).Ok? && m.fusionNet.Some? ==>
              var fused := ForwardDims(m.fusionNet.value, LidarOut(m, beh, lidarImgs).value, ImuOut(m, beh, imuMeas).value);
              && (fused.Err? ==> r == Err(fused.error))
              && (fused.Ok? ==> r == Ok(Some(Feature(FusionStage, fused.value))))
    ensures r.Ok? && m.fusionNet.None? && m.imuFeatNet.Some? ==>
              r.value == Some(Feature(ImuStage, ImuOut(m, beh, imuMeas).value.value))
    ensures r.Ok? && m.fusionNet.None? && m.imuFeatNet.None? && m.lidarFeatNet.Some? ==>
              r.value == Some(Feature(LidarStage, LidarOut(m, beh, lidarImgs).value.value))
    ensures m.fusionNet.None? && m.imuFeatNet.None? && m.lidarFeatNet.None? ==> r == Ok(None)
  {
    var lidarFeat :- LidarOut(m, beh, lidarImgs);
    var last1 := if lidarFeat.Some? then Some(Feature(LidarStage, lidarFeat.value)) else None;
    var imuFeat :- ImuOut(m, beh, imuMeas);
    var last2 := if imuFeat.Some? then Some(Feature(ImuStage, imuFeat.value)) else last1;
    if m.fusionNet.None? then Ok(last2)
    else
      var fused :- ForwardDims(m.fusionNet.value, lidarFeat, imuFeat);
      Ok(Some(Feature(FusionStage, fused)))
  }

  /** The stage part of `forward`: the stages up to fusion, then odometry,
      given the last feature so far. The last feature is the output of the
      stage `initialize` sized the heads from. */
  function ThreadFeatures<L, I>(m: DeepLioNet, beh: Behaviour<L, I>, lidarImgs: L, imuMeas: I)
    : (r: Result<Option<Feature>>)
    ensures ThreadUpToFusion(m, beh, lidarImgs, imuMeas).Err? ==>
              r == Err(ThreadUpToFusion(m, beh, lidarImgs, imuMeas).error)
    ensures m.odomFeatNet.None? ==> r == ThreadUpToFusion(m, beh, lidarImgs, imuMeas)
    ensures m.odomFeatNet.Some? && ThreadUpToFusion(m, beh, lidarImgs, imuMeas).Ok? ==>
              var odom := beh.odom(FeatureDims(ThreadUpToFusion(m, beh, lidarImgs, imuMeas).value));
              && (odom.Err? ==> r == Err(odom.error))
              && (odom.Ok? ==> r == Ok(Some(Feature(OdomStage, odom.value))))
    ensures r.Ok? ==> (r.value.Some? <==> FirstPresent(FeatNets(m)).Some?)
    ensures r.Ok? && r.value.Some? ==> r.value.value.from == KindOf(FirstPresent(FeatNets(m)).value)
  {
    FirstPresentIsPriority(m);
    var last3 :- ThreadUpToFusion(m, beh, lidarImgs, imuMeas);
    if m.odomFeatNet.None? then Ok(last3)
    else
      var odom :- beh.odom(FeatureDims(last3));
      Ok(Some(Feature(OdomStage, odom)))
  }

  /** The odometry net receives what the same network without it would
      have produced: the stages before it do not depend on it. */
  lemma OdometryReceivesFeature<L, I>(m: DeepLioNet, beh: Behaviour<L, I>, lidarImgs: L, imuMeas: I)
    requires m.odomFeatNet.Some?
    ensures var without := ThreadFeatures(m.(odomFeatNet := None), beh, lidarImgs, imuMeas);
            && (without.Err? ==> ThreadFeatures(m, beh, lidarImgs, imuMeas) == Err(without.error))
            && (without.Ok? ==>
                  ThreadFeatures(m, beh, lidarImgs, imuMeas) ==
                    (match beh.odom(FeatureDims(without.value))
                     case Ok(d) => Ok(Some(Feature(OdomStage, d)))
                     case Err(e) => Err(e)))
  {
    var m' := m.(odomFeatNet := None);
    assert LidarOut(m', beh, lidarImgs) == LidarOut(m, beh, lidarImgs);
    assert ImuOut(m', beh, imuMeas) == ImuOut(m, beh, imuMeas);
    assert ThreadUpToFusion(m', beh, lidarImgs, imuMeas) == ThreadUpToFusion(m, beh, lidarImgs, imuMeas);
  }

  /** A layer applied to a `[rows, f]` matrix: a linear layer needs `f` input
      features and yields its output width; dropout keeps the shape. */
  function ApplyLayer(layer: Layer, rows: nat, f: nat): (r: Result<Dims>)
    ensures layer.Linear? ==> (r.Ok? <==> layer.inFeatures == f)
    ensures r.Ok? && layer.Linear? ==> r.value == [rows, layer.outFeatures]
    ensures layer.Dropout? ==> r == Ok([rows, f])
  {
    match layer
    case Linear(i, o) => if i == f then Ok([rows, o]) else Err(RuntimeError)
    case Dropout(_) => Ok([rows, f])
  }

  /** The head part of `forward`: `b, s = x.shape[0:2]` (a `ValueError`
      below two dimensions), `reshape(b*s, -1)` (refused when `b*s` is 0,
      since `-1` is then ambiguous; a last feature of no elements per row
      gives rows of width 0), dropout when `p > 0`, then the two linear
      heads, which need the row width as their input width. Without
      `initialize` the dropout and heads are `None` and calling them fails. */
  function Head(m: DeepLioNet, heads: Option<Heads>, last: Option<Feature>): (r: Result<(Dims, Dims)>)
    ensures last.None? ==> r == Err(AttributeError)
    ensures last.Some? && |last.value.dims| < 2 ==> r == Err(ValueError)
    ensures last.Some? && |last.value.dims| >= 2 && last.value.dims[0] * last.value.dims[1] == 0 ==>
              r == Err(RuntimeError)
    ensures last.Some? && |last.value.dims| >= 2 && last.value.dims[0] * last.value.dims[1] > 0 ==>
              && (heads.None? ==> r == Err(TypeError))
              && (heads.Some? && m.p > 0.0 && heads.value.drop.None? ==> r == Err(TypeError))
              && (heads.Some? && (m.p <= 0.0 || heads.value.drop.Some?) ==>
                    var f := Numel(last.value.dims[2..]);
                    (r.Ok? <==> heads.value.fcPos.inFeatures == f && heads.value.fcOri.inFeatures == f))
    ensures r.Ok? ==> last.Some? && |last.value.dims| >= 2
    ensures r.Ok? ==> var n := last.value.dims[0] * last.value.dims[1];
              n > 0 && r.value.0 == [n, 3] && r.value.1 == [n, 4]
  {
    if last.None? then Err(AttributeError)
    else
      var d := last.value.dims;
      if |d| < 2 then Err(ValueError)
      else if d[0] * d[1] == 0 then Err(RuntimeError)
      else
        var rows, f := d[0] * d[1], Numel(d[2..]);
        if heads.None? then Err(TypeError)
        else if m.p > 0.0 && heads.value.drop.None? then Err(TypeError)
        else
          var pos :- ApplyLayer(heads.value.fcPos, rows, f);
          var ori :- ApplyLayer(heads.value.fcOri, rows, f);
          Ok((pos, ori))
  }

  /** `forward((lidar_imgs, imu_meas))` on shapes: the position and
      orientation outputs, `[b*s, 3]` and `[b*s, 4]`. */
  function Forward<L, I>(m: DeepLioNet, heads: Option<Heads>, beh: Behaviour<L, I>, lidarImgs: L, imuMeas: I)
    : (r: Result<(Dims, Dims)>)
    ensures FirstPresent(FeatNets(m)).None? && ThreadFeatures(m, beh, lidarImgs, imuMeas).Ok? ==>
              r == Err(AttributeError)
    ensures r.Ok? ==> |r.value.0| == 2 && |r.value.1| == 2 && r.value.0[0] == r.value.1[0]
    ensures r.Ok? ==> r.value.0[1] == 3 && r.value.1[1] == 4
    ensures r.Ok? ==>
              var t := ThreadFeatures(m, beh, lidarImgs, imuMeas);
              && t.Ok? && t.value.Some? && |t.value.value.dims| >= 2
              && r.value.0[0] == t.value.value.dims[0] * t.value.value.dims[1]
  {
    var last :- ThreadFeatures(m, beh, lidarImgs, imuMeas);
    Head(m, heads, last)
  }

  // ---------------------------------------------------------------------
  // End-to-end shape consistency
  // ---------------------------------------------------------------------

  /** Every present stage produces `[b, s, declared width]` on this input, and a
      present fusion layer concatenates the lidar and IMU features and was
      declared from their shapes. */
  ghost predicate Honours<L, I>(m: DeepLioNet, beh: Behaviour<L, I>, lidarImgs: L, imuMeas: I, b: nat, s: nat) {
    && (m.lidarFeatNet.Some? ==>
          |m.lidarFeatNet.value| >= 3 && beh.lidar(lidarImgs) == Ok([b, s, m.lidarFeatNet.value[2]]))
    && (m.imuFeatNet.Some? ==>
          |m.imuFeatNet.value| >= 3 && beh.imu(imuMeas) == Ok([b, s, m.imuFeatNet.value[2]]))
    && (m.odomFeatNet.Some? ==>
          |m.odomFeatNet.value| >= 3 && forall f :: beh.odom(f) == Ok([b, s, m.odomFeatNet.value[2]]))
    && (m.fusionNet.Some? ==>
          && m.lidarFeatNet.Some? && m.imuFeatNet.Some?
          && m.fusionNet.value.fusionType == "cat"
          && |m.fusionNet.value.outputShape| >= 3
          && m.fusionNet.value.outputShape[2] == m.lidarFeatNet.value[2] + m.imuFeatNet.value[2])
  }

  /** When every present stage honours its declared width, the width the heads
      were built for is the width of the feature that reaches them, and the
      outputs are `[b*s, 3]` and `[b*s, 4]`. */
  lemma ForwardShapes<L, I>(m: DeepLioNet, beh: Behaviour<L, I>, lidarImgs: L, imuMeas: I, b: nat, s: nat)
    requires Initialize(m).Ok?
    requires Honours(m, beh, lidarImgs, imuMeas, b, s)
    requires b * s > 0
    ensures Forward(m, Some(Initialize(m).value), beh, lidarImgs, imuMeas) == Ok(([b * s, 3], [b * s, 4]))
  {
    var nets := FeatNets(m);
    FirstPresentIsPriority(m);
    var last := ThreadFeatures(m, beh, lidarImgs, imuMeas);
    var w := OutputShape(FirstPresent(nets).value)[2];
    if m.fusionNet.Some? {
      var a, c := [b, s, m.lidarFeatNet.value[2]], [b, s, m.imuFeatNet.value[2]];
      assert forall k :: 0 <= k < 3 && k != 2 ==> a[k] == c[k];
      assert a[2 := a[2] + c[2]] == [b, s, a[2] + c[2]];
      assert CatDims(a, c) == Ok([b, s, a[2] + c[2]]);
      assert ForwardDims(m.fusionNet.value, Some(a), Some(c)) == Ok([b, s, a[2] + c[2]]);
    }
    assert last.Ok? && last.value.Some? && last.value.value.dims == [b, s, w];
    assert [b, s, w][2..] == [w];
    assert Numel([w]) == w by {
      assert [w][1..] == [];
    }
  }

  /** With only an IMU net of width 6, batches of 2 sequences of 3 steps give
      outputs of shape `[6, 3]` and `[6, 4]`. */
  lemma ImuOnlyExample<L, I>(beh: Behaviour<L, I>, lidarImgs: L, imuMeas: I)
    requires beh.imu(imuMeas) == Ok([2, 3, 6])
    ensures var m := DeepLioNet(0.0, None, Some([1, 3, 6]), None, None);
            && Initialize(m).Ok?
            && Initialize(m).value.fcPos == Linear(6, 3)
            && Forward(m, Some(Initialize(m).value), beh, lidarImgs, imuMeas) == Ok(([6, 3], [6, 4]))
  {
    var m := DeepLioNet(0.0, None, Some([1, 3, 6]), None, None);
    InitializePriority(m);
    ForwardShapes(m, beh, lidarImgs, imuMeas, 2, 3);
  }
}

=== FILE: fusion.dfy ===
/** `DeepLIOFusionLayer` (deeplio/models/nets/deeplio_nets.py): it declares
    its output shape when built, from the widths of its inputs, and at
    forward time concatenates the lidar and IMU features along the feature
    axis, lidar first. Any fusion type other than `cat` is refused, but only
    when `forward` runs. */
module Fusion {
  import opened Wrappers
  import opened Tensors
  import opened Config
  import Text

  datatype FusionLayer = FusionLayer(
    seqSize: nat,             // from the shared configuration
    fusionType: string,       // lower-cased configuration value
    inputShapes: seq<Dims>,
    outputShape: Dims)

  /** The sum of the third dimension of every shape; `IndexError` if a shape
      has fewer than three dimensions. */
  function WidthSum(shapes: seq<Dims>): (r: Result<nat>)
    ensures r.Ok? <==> forall i :: 0 <= i < |shapes| ==> |shapes[i]| >= 3
    ensures r.Err? ==> r.error == IndexError
  {
    if |shapes| == 0 then Ok(0)
    else if |shapes[0]| < 3 then Err(IndexError)
    else
      var rest :- WidthSum(shapes[1..]);
      Ok(shapes[0][2] + rest)
  }

  /** The widths of concatenated lists add up. */
  lemma {:induction false} WidthSumAppend(a: seq<Dims>, b: seq<Dims>)
    requires WidthSum(a).Ok? && WidthSum(b).Ok?
    ensures WidthSum(a + b) == Ok(WidthSum(a).value + WidthSum(b).value)
  {
    if |a| > 0 {
      WidthSumAppend(a[1..], b);
      assert (a + b)[1..] == a[1..] + b;
    } else {
      assert a + b == b;
    }
  }

  /** The constructor: the type defaults to `cat` and is lower-cased, so a
      value that is not a string has no `lower` and fails first; the declared
      output shape is `[1, seq_size, sum of the input widths]`. */
  function NewFusionLayer(inputShapes: seq<Dims>, cfg: Cfg, seqSize: nat): (r: Result<FusionLayer>)
    ensures AsString(Get(cfg, "type", StrV("cat"))).Err? ==> r == Err(AttributeError)
    ensures AsString(Get(cfg, "type", StrV("cat"))).Ok? && WidthSum(inputShapes).Err? ==> r == Err(IndexError)
    ensures r.Ok? <==>
              && ("type" in cfg ==> cfg["type"].StrV?)
              && forall i :: 0 <= i < |inputShapes| ==> |inputShapes[i]| >= 3
    ensures r.Ok? ==> r.value.inputShapes == inputShapes && r.value.seqSize == seqSize
    ensures r.Ok? && "type" !in cfg ==> r.value.fusionType == "cat"
    ensures r.Ok? && "type" in cfg ==> r.value.fusionType == Text.Lower(cfg["type"].s)
    ensures r.Ok? ==> |r.value.outputShape| == 3
    ensures r.Ok? ==> r.value.outputShape[0] == 1 && r.value.outputShape[1] == seqSize
    ensures r.Ok? ==> WidthSum(inputShapes) == Ok(r.value.outputShape[2])
  {
    var t :- AsString(Get(cfg, "type", StrV("cat")));
    var n :- WidthSum(inputShapes);
    Ok(FusionLayer(seqSize, Text.Lower(t), inputShapes, [1, seqSize, n]))
  }

  /** With the lidar and IMU shapes as inputs, the declared width is the
      lidar width plus the IMU width. */
  lemma DeclaredWidthOfPair(lidarShape: Dims, imuShape: Dims, cfg: Cfg, seqSize: nat)
    requires |lidarShape| >= 3 && |imuShape| >= 3
    requires "type" in cfg ==> cfg["type"].StrV?
    ensures NewFusionLayer([lidarShape, imuShape], cfg, seqSize).Ok?
    ensures NewFusionLayer([lidarShape, imuShape], cfg, seqSize).value.outputShape
              == [1, seqSize, lidarShape[2] + imuShape[2]]
  {
    var shapes: seq<Dims> := [lidarShape, imuShape];
    assert shapes[1..] == [imuShape];
    assert |shapes[1..][1..]| == 0;
    assert WidthSum([imuShape]) == Ok(imuShape[2] + 0);
    assert WidthSum(shapes) == Ok(lidarShape[2] + imuShape[2]);
  }

  // ---------------------------------------------------------------------
  // forward, with contents
  // ---------------------------------------------------------------------

  /** The concatenation of two valid tensors of equal batch and step counts
      along the feature axis. */
  function Cat(a: Tensor3, b: Tensor3): (r: Tensor3)
    requires a.Valid() && b.Valid()
    requires a.batch == b.batch && a.steps == b.steps
    ensures r.Valid()
    ensures r.Shape() == [a.batch, a.steps, a.width + b.width]
    ensures forall i, j :: 0 <= i < r.batch && 0 <= j < r.steps ==>
              r.data[i][j][..a.width] == a.data[i][j] && r.data[i][j][a.width..] == b.data[i][j]
  {
    Tensor3(a.batch, a.steps, a.width + b.width,
      seq(a.batch, i requires 0 <= i < a.batch =>
        seq(a.steps, j requires 0 <= j < a.steps => a.data[i][j] + b.data[i][j])))
  }

  /** `forward([lidar_feat, imu_feat])`. Either feature may be missing (the
      network passes `None` for an absent stage), which `torch.cat` refuses. */
  function Forward(layer: FusionLayer, lidarFeat: Option<Tensor3>, imuFeat: Option<Tensor3>): (r: Result<Tensor3>)
    requires lidarFeat.Some? ==> lidarFeat.value.Valid()
    requires imuFeat.Some? ==> imuFeat.value.Valid()
    ensures layer.fusionType != "cat" ==> r == Err(NotImplementedError)
    ensures layer.fusionType == "cat" && (lidarFeat.None? || imuFeat.None?) ==> r == Err(TypeError)
    ensures r.Ok? <==>
              && layer.fusionType == "cat" && lidarFeat.Some? && imuFeat.Some?
              && lidarFeat.value.batch == imuFeat.value.batch
              && lidarFeat.value.steps == imuFeat.value.steps
    ensures r.Ok? ==> r.value.Valid()
    ensures r.Ok? ==>
              r.value.Shape() == [lidarFeat.value.batch, lidarFeat.value.steps, lidarFeat.value.width + imuFeat.value.width]
    ensures r.Ok? ==> forall i, j :: 0 <= i < r.value.batch && 0 <= j < r.value.steps ==>
              r.value.data[i][j] == lidarFeat.value.data[i][j] + imuFeat.value.data[i][j]
  {
    if layer.fusionType != "cat" then Err(NotImplementedError)
    else if lidarFeat.None? || imuFeat.None? then Err(TypeError)
    else
      var a, b := lidarFeat.value, imuFeat.value;
      if a.batch != b.batch || a.steps != b.steps then Err(RuntimeError)
      else Ok(Cat(a, b))
  }

  /** Splitting a fused feature at the lidar width gives back the two inputs:
      the concatenation loses nothing and keeps lidar first. */
  lemma ForwardSplits(layer: FusionLayer, lidar: Tensor3, imu: Tensor3, i: nat, j: nat)
    requires lidar.Valid() && imu.Valid()
    requires Forward(layer, Some(lidar), Some(imu)).Ok?
    requires i < lidar.batch && j < lidar.steps
    ensures var out := Forward(layer, Some(lidar), Some(imu)).value;
            out.data[i][j][..lidar.width] == lidar.data[i][j]
            && out.data[i][j][lidar.width..] == imu.data[i][j]
  {
    var out := Forward(layer, Some(lidar), Some(imu)).value;
    assert out.data[i][j] == lidar.data[i][j] + imu.data[i][j];
  }

  // ---------------------------------------------------------------------
  // forward, shapes only
  // ---------------------------------------------------------------------

  /** `torch.cat((a, b), dim=2)` on shapes: the third dimension must exist,
      the ranks must agree and so must every other dimension. */
  function CatDims(a: Dims, b: Dims): (r: Result<Dims>)
    ensures r.Ok? <==> |a| >= 3 && |a| == |b| && forall k :: 0 <= k < |a| && k != 2 ==> a[k] == b[k]
    ensures r.Ok? ==> |r.value| == |a| && r.value[2] == a[2] + b[2]
    ensures r.Ok? ==> forall k :: 0 <= k < |a| && k != 2 ==> r.value[k] == a[k]
    ensures |a| < 3 ==> r == Err(IndexError)
  {
    if |a| < 3 then Err(IndexError)
    else if |a| != |b| then Err(RuntimeError)
    else if exists k :: 0 <= k < |a| && k != 2 && a[k] != b[k] then Err(RuntimeError)
    else Ok(a[2 := a[2] + b[2]])
  }

  /** `forward` seen through shapes, as the network composition uses it. */
  function ForwardDims(layer: FusionLayer, lidarFeat: Option<Dims>, imuFeat: Option<Dims>): (r: Result<Dims>)
    ensures layer.fusionType != "cat" ==> r == Err(NotImplementedError)
    ensures layer.fusionType == "cat" && (lidarFeat.None? || imuFeat.None?) ==> r == Err(TypeError)
    ensures r.Ok? ==> lidarFeat.Some? && imuFeat.Some? && r == CatDims(lidarFeat.value, imuFeat.value)
  {
    if layer.fusionType != "cat" then Err(NotImplementedError)
    else if lidarFeat.None? || imuFeat.None? then Err(TypeError)
    else CatDims(lidarFeat.value, imuFeat.value)
  }

  function ShapeOf(t: Option<Tensor3>): Option<Dims> {
    match t
    case Some(x) => Some(x.Shape())
    case None => None
  }

  /** The shape-level forward is exact: it fails exactly when the forward on
      contents fails, with the same exception, and otherwise predicts the shape. */
  lemma ForwardDimsAgrees(layer: FusionLayer, lidarFeat: Option<Tensor3>, imuFeat: Option<Tensor3>)
    requires lidarFeat.Some? ==> lidarFeat.value.Valid()
    requires imuFeat.Some? ==> imuFeat.value.Valid()
    ensures var r := Forward(layer, lidarFeat, imuFeat);
            var d := ForwardDims(layer, ShapeOf(lidarFeat), ShapeOf(imuFeat));
            && r.Ok? == d.Ok?
            && (r.Ok? ==> d.value == r.value.Shape())
            && (r.Err? ==> d.error == r.error)
  {
    if layer.fusionType == "cat" && lidarFeat.Some? && imuFeat.Some? {
      var a, b := lidarFeat.value.Shape(), imuFeat.value.Shape();
      if lidarFeat.value.batch != imuFeat.value.batch {
        assert a[0] != b[0];
      } else if lidarFeat.value.steps != imuFeat.value.steps {
        assert a[1] != b[1];
      }
    }
  }
}

=== FILE: imu_config.dfy ===
/** Construction of the IMU feature nets (deeplio/models/nets/imu_feat_nets.py):
    how `BaseImuFeatNet`, `ImuFeatFC`, `ImufeatRNN0` and `ImuFeatRnn1` read
    their layer configuration, which layers they build with which widths, and
    which output shape they declare. */
module ImuConfig {
  import opened Wrappers
  import opened Tensors
  import opened Config
  import Text

  // ---------------------------------------------------------------------
  // BaseImuFeatNet
  // ---------------------------------------------------------------------

  /** What `BaseImuFeatNet.__init__` stores: the configured values, unchecked.
      They are checked only where the subclasses use them. */
  datatype BaseImuFeatNet = BaseImuFeatNet(dropout: CfgValue, inputSize: CfgValue, numLayers: CfgValue, seqSize: nat)

  /** `BaseImuFeatNet.__init__`: `dropout` and `input-size` are required,
      `num-layers` defaults to 2, `seq_size` comes from the shared configuration. */
  function NewBase(cfg: Cfg, seqSize: nat): (r: Result<BaseImuFeatNet>)
    ensures "dropout" !in cfg ==> r == Err(KeyError("dropout"))
    ensures "dropout" in cfg && "input-size" !in cfg ==> r == Err(KeyError("input-size"))
    ensures r.Ok? <==> "dropout" in cfg && "input-size" in cfg
    ensures r.Ok? ==> r.value.dropout == cfg["dropout"] && r.value.inputSize == cfg["input-size"]
    ensures r.Ok? && "num-layers" !in cfg ==> r.value.numLayers == IntV(2)
    ensures r.Ok? && "num-layers" in cfg ==> r.value.numLayers == cfg["num-layers"]
    ensures r.Ok? ==> r.value.seqSize == seqSize
  {
    var dropout :- Require(cfg, "dropout");
    var inputSize :- Require(cfg, "input-size");
    Ok(BaseImuFeatNet(dropout, inputSize, Get(cfg, "num-layers", IntV(2)), seqSize))
  }

  /** The checked parameters a built net works with: the dropout
      probability, the sample width and `seq_size`. */
  datatype ImuParams = ImuParams(p: real, inputSize: nat, seqSize: nat)

  // ---------------------------------------------------------------------
  // ImuFeatFC
  // ---------------------------------------------------------------------

  datatype ImuFeatFc = ImuFeatFc(
    base: ImuParams,
    hidden: seq<nat>,
    numLayers: nat,
    layers: seq<Layer>,
    outputShape: Dims)

  /** A layer width: a non-negative Python int. */
  predicate IsWidth(v: CfgValue) {
    AsInt(v).Ok? && AsInt(v).value >= 0
  }

  function Width(v: CfgValue): nat
    requires IsWidth(v)
  {
    AsInt(v).value
  }

  /** `nn.Linear(a, b)`: both widths must be ints (`TypeError`), and a
      negative one fails when the weight is allocated (`RuntimeError`). */
  function NewLinear(a: CfgValue, b: CfgValue): (r: Result<Layer>)
    ensures r.Ok? <==> IsWidth(a) && IsWidth(b)
    ensures r.Ok? ==> r.value == Linear(Width(a), Width(b))
    ensures AsInt(a).Err? || AsInt(b).Err? ==> r == Err(TypeError)
    ensures AsInt(a).Ok? && AsInt(b).Ok? && r.Err? ==> r.error == RuntimeError
  {
    var i :- AsInt(a);
    var o :- AsInt(b);
    if i < 0 || o < 0 then Err(RuntimeError) else Ok(Linear(i, o))
  }

  /** What layer `k` of the stack is built from: `input_size` for the first,
      `hidden[k-1]` after that. */
  function LayerInput(inputSize: CfgValue, hidden: seq<CfgValue>, k: nat): CfgValue
    requires k < |hidden|
  {
    if k == 0 then inputSize else hidden[k - 1]
  }

  /** The first layer from `k` on that cannot be built, or the length of
      the list when every one can. */
  function FirstFailing(inputSize: CfgValue, hidden: seq<CfgValue>, k: nat): (i: nat)
    requires k <= |hidden|
    ensures k <= i <= |hidden|
    ensures forall j :: k <= j < i ==> NewLinear(LayerInput(inputSize, hidden, j), hidden[j]).Ok?
    ensures i < |hidden| ==> NewLinear(LayerInput(inputSize, hidden, i), hidden[i]).Err?
    decreases |hidden| - k
  {
    if k == |hidden| || NewLinear(LayerInput(inputSize, hidden, k), hidden[k]).Err? then k
    else FirstFailing(inputSize, hidden, k + 1)
  }

  /** The linear layers from layer `k` on, built first to last; the first
      one that cannot be built stops the loop with its error. */
  function ChainFrom(inputSize: CfgValue, hidden: seq<CfgValue>, k: nat): (r: Result<seq<Layer>>)
    requires k <= |hidden|
    ensures r.Ok? <==> forall i :: k <= i < |hidden| ==> NewLinear(LayerInput(inputSize, hidden, i), hidden[i]).Ok?
    ensures r.Ok? ==> |r.value| == |hidden| - k
    ensures r.Ok? ==> forall i :: k <= i < |hidden| ==>
              r.value[i - k] == NewLinear(LayerInput(inputSize, hidden, i), hidden[i]).value
    ensures r.Err? ==> var i := FirstFailing(inputSize, hidden, k);
              i < |hidden| && r == Err(NewLinear(LayerInput(inputSize, hidden, i), hidden[i]).error)
    decreases |hidden| - k
  {
    if k == |hidden| then Ok([])
    else
      var first := NewLinear(LayerInput(inputSize, hidden, k), hidden[k]);
      if first.Err? then Err(first.error)
      else
        var rest := ChainFrom(inputSize, hidden, k + 1);
        if rest.Err? then rest
        else
          var r := [first.value] + rest.value;
          assert forall j :: 1 <= j < |r| ==> r[j] == rest.value[j - 1];
          Ok(r)
  }

  /** The linear layers: layer 0 maps `input_size` to `hidden[0]`, layer `i`
      maps `hidden[i-1]` to `hidden[i]`. */
  function LinearChain(inputSize: CfgValue, hidden: seq<CfgValue>): (r: Result<seq<Layer>>)
    ensures r.Ok? <==> forall k :: 0 <= k < |hidden| ==> NewLinear(LayerInput(inputSize, hidden, k), hidden[k]).Ok?
    ensures r.Ok? ==> |r.value| == |hidden|
    ensures r.Ok? ==> forall k :: 0 <= k < |hidden| ==>
              r.value[k] == NewLinear(LayerInput(inputSize, hidden, k), hidden[k]).value
    ensures r.Ok? ==> (|hidden| > 0 ==> IsWidth(inputSize)) && forall k :: 0 <= k < |hidden| ==> IsWidth(hidden[k])
  {
    var r := ChainFrom(inputSize, hidden, 0);
    assert r.Ok? && |hidden| > 0 ==> NewLinear(LayerInput(inputSize, hidden, 0), hidden[0]).Ok?;
    r
  }

  /** The first layer that cannot be built stops the constructor, with its
      own error: every layer before it was built. */
  lemma LinearChainFirstError(inputSize: CfgValue, hidden: seq<CfgValue>)
    requires LinearChain(inputSize, hidden).Err?
    ensures exists k :: 0 <= k < |hidden|
              && (forall j :: 0 <= j < k ==> NewLinear(LayerInput(inputSize, hidden, j), hidden[j]).Ok?)
              && NewLinear(LayerInput(inputSize, hidden, k), hidden[k]) == Err(LinearChain(inputSize, hidden).error)
  {
    var k := FirstFailing(inputSize, hidden, 0);
    assert NewLinear(LayerInput(inputSize, hidden, k), hidden[k]) == Err(LinearChain(inputSize, hidden).error);
  }

  /** The widths of a list of layer widths. */
  function Widths(items: seq<CfgValue>): (r: seq<nat>)
    requires forall k :: 0 <= k < |items| ==> IsWidth(items[k])
    ensures |r| == |items|
    ensures forall k :: 0 <= k < |items| ==> r[k] == Width(items[k])
  {
    seq(|items|, k requires 0 <= k < |items| => Width(items[k]))
  }

  /** The configured `hidden-size`, `[6, 6]` when absent. */
  function HiddenCfg(cfg: Cfg): CfgValue {
    Get(cfg, "hidden-size", ListV([IntV(6), IntV(6)]))
  }

  /** `if self.p > 0.: layers.append(nn.Dropout(self.p))`: the comparison
      needs a number, and `nn.Dropout` refuses a probability above 1. */
  function DropoutTail(dropout: CfgValue): (r: Result<seq<Layer>>)
    ensures r.Ok? <==> AsNumber(dropout).Ok? && AsNumber(dropout).value <= 1.0
    ensures AsNumber(dropout).Err? ==> r == Err(TypeError)
    ensures AsNumber(dropout).Ok? && AsNumber(dropout).value > 1.0 ==> r == Err(ValueError)
    ensures r.Ok? ==> var p := AsNumber(dropout).value;
              r.value == if p > 0.0 then [Dropout(p)] else []
  {
    var p :- AsNumber(dropout);
    if p > 1.0 then Err(ValueError)
    else if p > 0.0 then Ok([Dropout(p)])
    else Ok([])
  }

  /** `ImuFeatFC.__init__`: `hidden-size` defaults to `[6, 6]` and its length
      is the number of layers; an empty list fails at `hidden_size[0]`; the
      linear layers are built in order, then one dropout layer when `p > 0`;
      the declared output shape is `[1, seq_size, hidden[-1]]`. */
  function NewImuFeatFc(cfg: Cfg, seqSize: nat): (r: Result<ImuFeatFc>)
    ensures NewBase(cfg, seqSize).Err? ==> r == Err(NewBase(cfg, seqSize).error)
    ensures NewBase(cfg, seqSize).Ok? && Items(HiddenCfg(cfg)).Err? ==> r == Err(TypeError)
    ensures NewBase(cfg, seqSize).Ok? && Items(HiddenCfg(cfg)) == Ok([]) ==> r == Err(IndexError)
    ensures NewBase(cfg, seqSize).Ok? && Items(HiddenCfg(cfg)).Ok? && |Items(HiddenCfg(cfg)).value| > 0
            && LinearChain(cfg["input-size"], Items(HiddenCfg(cfg)).value).Err? ==>
              r == Err(LinearChain(cfg["input-size"], Items(HiddenCfg(cfg)).value).error)
    ensures r.Ok? <==>
              && NewBase(cfg, seqSize).Ok?
              && Items(HiddenCfg(cfg)).Ok? && |Items(HiddenCfg(cfg)).value| > 0
              && LinearChain(cfg["input-size"], Items(HiddenCfg(cfg)).value).Ok?
              && DropoutTail(cfg["dropout"]).Ok?
    ensures r.Ok? ==> r.value.base == ImuParams(AsNumber(cfg["dropout"]).value, Width(cfg["input-size"]), seqSize)
    ensures r.Ok? ==> |r.value.hidden| == |Items(HiddenCfg(cfg)).value| > 0 && r.value.numLayers == |r.value.hidden|
    ensures r.Ok? ==> forall k :: 0 <= k < |r.value.hidden| ==> r.value.hidden[k] == Width(Items(HiddenCfg(cfg)).value[k])
    ensures r.Ok? && "hidden-size" !in cfg ==> r.value.hidden == [6, 6]
    ensures r.Ok? ==> r.value.outputShape == [1, seqSize, r.value.hidden[|r.value.hidden| - 1]]
  {
    var base :- NewBase(cfg, seqSize);
    var items :- Items(HiddenCfg(cfg));
    if |items| == 0 then Err(IndexError) else FcLayers(base, items)
  }

  /** The layers of `ImuFeatFC` built from a non-empty `hidden-size` list. */
  function FcLayers(base: BaseImuFeatNet, items: seq<CfgValue>): (r: Result<ImuFeatFc>)
    requires |items| > 0
    ensures LinearChain(base.inputSize, items).Err? ==> r == Err(LinearChain(base.inputSize, items).error)
    ensures r.Ok? <==> LinearChain(base.inputSize, items).Ok? && DropoutTail(base.dropout).Ok?
    ensures LinearChain(base.inputSize, items).Ok? && DropoutTail(base.dropout).Err? ==> r == Err(DropoutTail(base.dropout).error)
    ensures r.Ok? ==> r.value.base == ImuParams(AsNumber(base.dropout).value, Width(base.inputSize), base.seqSize)
    ensures r.Ok? ==> r.value.numLayers == |r.value.hidden| == |items|
    ensures r.Ok? ==> forall k :: 0 <= k < |items| ==> r.value.hidden[k] == Width(items[k])
    ensures r.Ok? ==> r.value.outputShape == [1, base.seqSize, r.value.hidden[|items| - 1]]
    ensures r.Ok? ==> r.value.layers == LinearChain(base.inputSize, items).value + DropoutTail(base.dropout).value
  {
    var chain := LinearChain(base.inputSize, items);
    var drop := DropoutTail(base.dropout);
    if chain.Err? then Err(chain.error)
    else if drop.Err? then Err(drop.error)
    else
      var p := AsNumber(base.dropout).value;
      Ok(ImuFeatFc(ImuParams(p, Width(base.inputSize), base.seqSize), Widths(items), |items|,
                   chain.value + drop.value, [1, base.seqSize, Width(items[|items| - 1])]))
  }

  /** The layer list of a built `ImuFeatFC`, layer by layer. */
  lemma FcLayersAt(base: BaseImuFeatNet, items: seq<CfgValue>)
    requires |items| > 0 && FcLayers(base, items).Ok?
    ensures var net := FcLayers(base, items).value;
            && |net.layers| == net.numLayers + (if net.base.p > 0.0 then 1 else 0)
            && net.layers[0] == Linear(net.base.inputSize, net.hidden[0])
            && (forall i :: 1 <= i < net.numLayers ==> net.layers[i] == Linear(net.hidden[i - 1], net.hidden[i]))
            && (net.base.p > 0.0 ==> net.layers[net.numLayers] == Dropout(net.base.p))
  {
    var net := FcLayers(base, items).value;
    var chain := LinearChain(base.inputSize, items).value;
    assert net.layers[0] == chain[0];
    forall i | 1 <= i < net.numLayers
      ensures net.layers[i] == Linear(net.hidden[i - 1], net.hidden[i])
    {
      assert net.layers[i] == chain[i];
      assert LayerInput(base.inputSize, items, i) == items[i - 1];
    }
  }

  /** The layer list `ImuFeatFC.__init__` builds: a linear layer from the
      sample width to `hidden[0]`, one from `hidden[i-1]` to `hidden[i]` for
      every further width, and a final dropout layer exactly when `p > 0`;
      the declared width is the last hidden width. */
  predicate FcStack(net: ImuFeatFc) {
    && 0 < net.numLayers == |net.hidden|
    && |net.outputShape| == 3 && net.outputShape[2] == net.hidden[net.numLayers - 1]
    && |net.layers| == net.numLayers + (if net.base.p > 0.0 then 1 else 0)
    && net.layers[0] == Linear(net.base.inputSize, net.hidden[0])
    && (forall i :: 1 <= i < net.numLayers ==> net.layers[i] == Linear(net.hidden[i - 1], net.hidden[i]))
    && (net.base.p > 0.0 ==> net.layers[net.numLayers] == Dropout(net.base.p))
  }

  /** A built `ImuFeatFC` has that layer list. */
  lemma FcLayersOf(cfg: Cfg, seqSize: nat)
    requires NewImuFeatFc(cfg, seqSize).Ok?
    ensures FcStack(NewImuFeatFc(cfg, seqSize).value)
  {
    var base := NewBase(cfg, seqSize).value;
    var items := Items(HiddenCfg(cfg)).value;
    assert NewImuFeatFc(cfg, seqSize) == FcLayers(base, items);
    FcLayersAt(base, items);
  }

  /** Such a layer list composes: the first layer takes the IMU sample
      width, each linear layer takes what the previous one produces, the
      last linear layer produces the declared width, and a dropout layer can
      only come last, when `p > 0`. */
  lemma StackComposes(net: ImuFeatFc)
    requires FcStack(net)
    ensures net.layers[0] == Linear(net.base.inputSize, net.hidden[0])
    ensures forall i, j :: 0 <= i && j == i + 1 && j < net.numLayers ==>
              net.layers[i].Linear? && net.layers[j].Linear?
              && net.layers[i].outFeatures == net.layers[j].inFeatures
    ensures net.layers[net.numLayers - 1].Linear?
    ensures net.layers[net.numLayers - 1].outFeatures == net.outputShape[2]
    ensures forall i :: 0 <= i < |net.layers| && net.layers[i].Dropout? ==>
              i == |net.layers| - 1 && net.base.p > 0.0
  {
    var n, layers, hidden := net.numLayers, net.layers, net.hidden;
    forall i | 0 <= i < n
      ensures layers[i].Linear?
    {
      if i > 0 {
        assert layers[i] == Linear(hidden[i - 1], hidden[i]);
      }
    }
    forall i, j | 0 <= i && j == i + 1 && j < n
      ensures layers[i].outFeatures == layers[j].inFeatures
    {
      assert layers[j] == Linear(hidden[i], hidden[j]);
      if i > 0 {
        assert layers[i] == Linear(hidden[i - 1], hidden[i]);
      }
    }
    if n > 1 {
      assert layers[n - 1] == Linear(hidden[n - 2], hidden[n - 1]);
    }
  }

  /** The layers of a built `ImuFeatFC` compose. */
  lemma FcLayersCompose(cfg: Cfg, seqSize: nat)
    requires NewImuFeatFc(cfg, seqSize).Ok?
    ensures var net := NewImuFeatFc(cfg, seqSize).value;
            && net.layers[0] == Linear(net.base.inputSize, net.hidden[0])
            && (forall i, j :: 0 <= i && j == i + 1 && j < net.numLayers ==>
                  net.layers[i].Linear? && net.layers[j].Linear?
                  && net.layers[i].outFeatures == net.layers[j].inFeatures)
            && net.layers[net.numLayers - 1].Linear?
            && net.layers[net.numLayers - 1].outFeatures == net.outputShape[2]
            && (forall i :: 0 <= i < |net.layers| && net.layers[i].Dropout? ==>
                  i == |net.layers| - 1 && net.base.p > 0.0)
  {
    FcLayersOf(cfg, seqSize);
    StackComposes(NewImuFeatFc(cfg, seqSize).value);
  }

  // ---------------------------------------------------------------------
  // ImufeatRNN0 and ImuFeatRnn1
  // ---------------------------------------------------------------------

  datatype CellType = Gru | Lstm

  /** The cell family: GRU exactly when the lower-cased type is `gru`,
      LSTM for every other string. */
  function CellFor(rnnType: string): (c: CellType)
    ensures c == Gru <==> Text.Lower(rnnType) == "gru"
  {
    if Text.Lower(rnnType) == "gru" then Gru else Lstm
  }

  /** A dropout probability `nn.GRU` and `nn.LSTM` accept: an int or a
      float (not a bool) between 0 and 1. */
  predicate IsProbability(v: CfgValue) {
    (v.IntV? && 0 <= v.i <= 1) || (v.RealV? && 0.0 <= v.r <= 1.0)
  }

  /** A positive Python int, as `hidden_size` and `num_layers` must be. */
  predicate IsPositiveInt(v: CfgValue) {
    AsInt(v).Ok? && AsInt(v).value > 0
  }

  /** The recurrent cell's checked arguments. */
  datatype RnnArgs = RnnArgs(p: real, hiddenSize: nat, numLayers: nat, inputSize: nat)

  /** The argument checks of the recurrent cell's constructor, in its order:
      the dropout, first converted with `float` (a list is a `TypeError`;
      a string either fails to convert or is no number, both `ValueError`)
      and then required to be a probability (`ValueError`), `hidden_size` (an int, else
      `TypeError`; positive, else `ValueError`), `num_layers` (compared with
      0, so a non-number is a `TypeError` and a non-positive number a
      `ValueError`; then used as a `range` bound, so a float is a
      `TypeError`), and finally `input_size` as the first weight's width (an
      int, else `TypeError`; non-negative, else `RuntimeError`). */
  function CheckRnnArgs(dropout: CfgValue, hidden: CfgValue, numLayers: CfgValue, inputSize: CfgValue): (r: Result<RnnArgs>)
    ensures dropout.ListV? ==> r == Err(TypeError)
    ensures !dropout.ListV? && !IsProbability(dropout) ==> r == Err(ValueError)
    ensures IsProbability(dropout) && AsInt(hidden).Err? ==> r == Err(TypeError)
    ensures IsProbability(dropout) && AsInt(hidden).Ok? && AsInt(hidden).value <= 0 ==> r == Err(ValueError)
    ensures IsProbability(dropout) && IsPositiveInt(hidden) && AsNumber(numLayers).Err? ==> r == Err(TypeError)
    ensures IsProbability(dropout) && IsPositiveInt(hidden) && AsNumber(numLayers).Ok? && AsNumber(numLayers).value <= 0.0 ==>
              r == Err(ValueError)
    ensures IsProbability(dropout) && IsPositiveInt(hidden) && numLayers.RealV? && numLayers.r > 0.0 ==> r == Err(TypeError)
    ensures IsProbability(dropout) && IsPositiveInt(hidden) && IsPositiveInt(numLayers) && AsInt(inputSize).Err? ==>
              r == Err(TypeError)
    ensures IsProbability(dropout) && IsPositiveInt(hidden) && IsPositiveInt(numLayers) && AsInt(inputSize).Ok? && AsInt(inputSize).value < 0 ==>
              r == Err(RuntimeError)
    ensures r.Ok? <==> IsProbability(dropout) && IsPositiveInt(hidden) && IsPositiveInt(numLayers) && IsWidth(inputSize)
    ensures r.Ok? ==> r.value.p == AsNumber(dropout).value && r.value.hiddenSize == Width(hidden)
    ensures r.Ok? ==> r.value.numLayers == Width(numLayers) && r.value.inputSize == Width(inputSize)
  {
    if dropout.ListV? then Err(TypeError)
    else if !IsProbability(dropout) then Err(ValueError)
    else
      var h :- AsInt(hidden);
      if h <= 0 then Err(ValueError)
      else
        var n :- AsNumber(numLayers);
        if n <= 0.0 then Err(ValueError)
        else
          var layers :- AsInt(numLayers);
          var i :- AsInt(inputSize);
          if i < 0 then Err(RuntimeError)
          else Ok(RnnArgs(AsNumber(dropout).value, h, layers, i))
  }

  datatype ImuFeatRnn = ImuFeatRnn(
    base: ImuParams,
    cell: CellType,
    hiddenSize: nat,
    bidirectional: bool,
    numLayers: nat,
    batchFirst: bool,        // RNN0 lays its cell out batch first, RNN1 does not
    numDir: nat,
    outputShape: Dims)

  /** The configured `hidden-size` of a recurrent net, 6 when absent. */
  function RnnHiddenCfg(cfg: Cfg): CfgValue {
    Get(cfg, "hidden-size", IntV(6))
  }

  /** The recurrent cell's arguments as the constructor passes them. */
  function RnnArgsOf(cfg: Cfg): Result<RnnArgs>
    requires "dropout" in cfg && "input-size" in cfg
  {
    CheckRnnArgs(cfg["dropout"], RnnHiddenCfg(cfg), Get(cfg, "num-layers", IntV(2)), cfg["input-size"])
  }

  /** The constructor shared by the two recurrent nets: after the base, `type`
      is required and lower-cased, `hidden-size` defaults to 6 and
      `bidirectional` to false (used for its truth value); then the cell is
      built, with the checks of `CheckRnnArgs`; the declared output shape is
      `[1, seq_size, hidden_size]`. */
  function NewImuFeatRnn(cfg: Cfg, seqSize: nat, batchFirst: bool): (r: Result<ImuFeatRnn>)
    ensures NewBase(cfg, seqSize).Err? ==> r == Err(NewBase(cfg, seqSize).error)
    ensures NewBase(cfg, seqSize).Ok? && "type" !in cfg ==> r == Err(KeyError("type"))
    ensures NewBase(cfg, seqSize).Ok? && "type" in cfg && !cfg["type"].StrV? ==> r == Err(AttributeError)
    ensures NewBase(cfg, seqSize).Ok? && "type" in cfg && cfg["type"].StrV? && RnnArgsOf(cfg).Err? ==>
              r == Err(RnnArgsOf(cfg).error)
    ensures r.Ok? <==> NewBase(cfg, seqSize).Ok? && "type" in cfg && cfg["type"].StrV? && RnnArgsOf(cfg).Ok?
    ensures r.Ok? ==> r.value.cell == CellFor(cfg["type"].s) && r.value.batchFirst == batchFirst
    ensures r.Ok? ==> r.value.base == ImuParams(RnnArgsOf(cfg).value.p, RnnArgsOf(cfg).value.inputSize, seqSize)
    ensures r.Ok? ==> r.value.hiddenSize == RnnArgsOf(cfg).value.hiddenSize && r.value.numLayers == RnnArgsOf(cfg).value.numLayers
    ensures r.Ok? && "hidden-size" !in cfg ==> r.value.hiddenSize == 6
    ensures r.Ok? && "num-layers" !in cfg ==> r.value.numLayers == 2
    ensures r.Ok? ==> r.value.bidirectional == Truthy(Get(cfg, "bidirectional", BoolV(false)))
    ensures r.Ok? && "bidirectional" !in cfg ==> !r.value.bidirectional
    ensures r.Ok? ==> r.value.numDir == (if r.value.bidirectional then 2 else 1)
    ensures r.Ok? ==> r.value.outputShape == [1, seqSize, r.value.hiddenSize]
  {
    var base :- NewBase(cfg, seqSize);
    var rnnType :- Require(cfg, "type");
    var t :- AsString(rnnType);
    var bidirectional := Truthy(Get(cfg, "bidirectional", BoolV(false)));
    var args :- CheckRnnArgs(base.dropout, RnnHiddenCfg(cfg), base.numLayers, base.inputSize);
    var numDir := if bidirectional then 2 else 1;
    Ok(ImuFeatRnn(ImuParams(args.p, args.inputSize, seqSize), CellFor(t), args.hiddenSize, bidirectional,
                  args.numLayers, batchFirst, numDir, [1, seqSize, args.hiddenSize]))
  }

  /** `ImufeatRNN0.__init__`. */
  function NewImufeatRnn0(cfg: Cfg, seqSize: nat): (r: Result<ImuFeatRnn>)
    ensures r.Ok? ==> r.value.batchFirst
    ensures r.Ok? <==> NewImuFeatRnn(cfg, seqSize, false).Ok?
  {
    NewImuFeatRnn(cfg, seqSize, true)
  }

  /** `ImuFeatRnn1.__init__`. */
  function NewImuFeatRnn1(cfg: Cfg, seqSize: nat): (r: Result<ImuFeatRnn>)
    ensures r.Ok? ==> !r.value.batchFirst
    ensures r.Ok? <==> NewImuFeatRnn(cfg, seqSize, true).Ok?
  {
    NewImuFeatRnn(cfg, seqSize, false)
  }

  /** The cell choice ignores letter case and falls back to LSTM for any
      other name. */
  lemma CellChoiceExamples()
    ensures CellFor("gru") == Gru && CellFor("GRU") == Gru && CellFor("Gru") == Gru
    ensures CellFor("lstm") == Lstm && CellFor("LSTM") == Lstm && CellFor("rnn") == Lstm
    ensures CellFor("") == Lstm
  {
    assert Text.Lower("GRU") == "gru";
    assert Text.Lower("Gru") == "gru";
  }

  /** With only the required keys, a recurrent net is built exactly when the
      dropout probability lies in [0, 1], and is then a unidirectional LSTM or
      GRU of width 6 with two layers. */
  lemma RnnDefaults(p: real, inputSize: nat, rnnType: string, seqSize: nat, batchFirst: bool)
    ensures var cfg := map["dropout" := RealV(p), "input-size" := IntV(inputSize), "type" := StrV(rnnType)];
            && (NewImuFeatRnn(cfg, seqSize, batchFirst).Ok? <==> 0.0 <= p <= 1.0)
            && (!(0.0 <= p <= 1.0) ==> NewImuFeatRnn(cfg, seqSize, batchFirst) == Err(ValueError))
            && (NewImuFeatRnn(cfg, seqSize, batchFirst).Ok? ==>
                  && NewImuFeatRnn(cfg, seqSize, batchFirst).value.hiddenSize == 6
                  && NewImuFeatRnn(cfg, seqSize, batchFirst).value.numLayers == 2
                  && NewImuFeatRnn(cfg, seqSize, batchFirst).value.numDir == 1
                  && NewImuFeatRnn(cfg, seqSize, batchFirst).value.outputShape == [1, seqSize, 6])
  {
  }

  /** A list given as the dropout reaches the recurrent cell unchecked, and
      the cell's `float` conversion refuses it with a `TypeError`. */
  lemma RnnListDropout(items: seq<CfgValue>, inputSize: nat, rnnType: string, seqSize: nat, batchFirst: bool)
    ensures var cfg := map["dropout" := ListV(items), "input-size" := IntV(inputSize), "type" := StrV(rnnType)];
            NewImuFeatRnn(cfg, seqSize, batchFirst) == Err(TypeError)
  {
  }
}

=== FILE: imu_forward.dfy ===
/** The forward passes of the IMU feature nets
    (deeplio/models/nets/imu_feat_nets.py). The learned parts, the per-sample
    layer stack of `ImuFeatFC` and the recurrent layer of the two RNN nets,
    are parameters known only by the widths the framework guarantees for
    them. What is modelled is how each net walks its input, which vector it
    keeps for each window, and how the kept vectors become a
    `[batch, seq_size, H]` feature tensor. */
module ImuForward {
  import opened Wrappers
  import opened Tensors
  import opened Config
  import opened ImuConfig

  // ---------------------------------------------------------------------
  // Summing rows (`torch.sum(y, dim=0)`)
  // ---------------------------------------------------------------------

  function Zeros(w: nat): (r: Vec)
    ensures |r| == w
  {
    seq(w, _ => 0.0)
  }

  function Add(a: Vec, b: Vec): (r: Vec)
    requires |a| == |b|
    ensures |r| == |a|
  {
    seq(|a|, k requires 0 <= k < |a| => a[k] + b[k])
  }

  /** The element-wise sum of rows of width `w`; zeros for no rows. */
  function SumRows(rows: seq<Vec>, w: nat): (r: Vec)
    requires Uniform(rows, w)
    ensures |r| == w
  {
    if |rows| == 0 then Zeros(w) else Add(rows[0], SumRows(rows[1..], w))
  }

  /** The sum over two runs of rows is the sum of the two sums. */
  lemma {:induction false} SumRowsAppend(a: seq<Vec>, b: seq<Vec>, w: nat)
    requires Uniform(a, w) && Uniform(b, w)
    ensures Uniform(a + b, w)
    ensures SumRows(a + b, w) == Add(SumRows(a, w), SumRows(b, w))
    decreases |a|
  {
    if |a| == 0 {
      assert a + b == b;
    } else {
      SumRowsAppend(a[1..], b, w);
      assert (a + b)[1..] == a[1..] + b;
    }
  }

  lemma MultisetRemoveFront(a: seq<Vec>, before: seq<Vec>, after: seq<Vec>)
    requires |a| > 0
    requires multiset(a) == multiset(before + [a[0]] + after)
    ensures multiset(a[1..]) == multiset(before + after)
  {
    var x := a[0];
    assert a == [x] + a[1..];
    assert before + [x] + after == before + ([x] + after);
    assert ([x] + after) == [x] + after;
    forall y: Vec
      ensures multiset(a[1..])[y] == multiset(before + after)[y]
    {
      assert multiset(a)[y] == multiset{x}[y] + multiset(a[1..])[y];
      assert multiset(before + [x] + after)[y] == multiset(before)[y] + multiset{x}[y] + multiset(after)[y];
    }
  }

  /** Moving one row to the front leaves the sum unchanged. */
  lemma SumRowsMoveFront(before: seq<Vec>, x: Vec, after: seq<Vec>, w: nat)
    requires Uniform(before, w) && |x| == w && Uniform(after, w)
    ensures Uniform(before + [x] + after, w) && Uniform(before + after, w)
    ensures SumRows(before + [x] + after, w) == Add(x, SumRows(before + after, w))
  {
    SumRowsAppend(before, after, w);
    SumRowsAppend(before, [x] + after, w);
    assert ([x] + after)[1..] == after;
    assert before + [x] + after == before + ([x] + after);
  }

  /** The pooling ignores the order of the rows: any rearrangement of them
      has the same sum. */
  lemma {:induction false} SumRowsPermutation(a: seq<Vec>, b: seq<Vec>, w: nat)
    requires Uniform(a, w)
    requires multiset(a) == multiset(b)
    ensures Uniform(b, w)
    ensures SumRows(a, w) == SumRows(b, w)
    decreases |a|
  {
    assert |b| == |multiset(b)| == |multiset(a)| == |a|;
    forall i | 0 <= i < |b|
      ensures |b[i]| == w
    {
      assert b[i] in multiset(a);
    }
    if |a| > 0 {
      var x := a[0];
      assert x in multiset(b);
      var j :| 0 <= j < |b| && b[j] == x;
      var before, after := b[..j], b[j + 1..];
      assert b == before + [x] + after;
      MultisetRemoveFront(a, before, after);
      SumRowsPermutation(a[1..], before + after, w);
      SumRowsMoveFront(before, x, after, w);
    }
  }

  // ---------------------------------------------------------------------
  // ImuFeatFC.forward
  // ---------------------------------------------------------------------

  /** The per-sample stack keeps to its widths: a sample of the input width
      comes out with the width of the last hidden layer. */
  ghost predicate StackWidths(stack: Vec -> Vec, n: nat, h: nat) {
    forall v: Vec :: |v| == n ==> |stack(v)| == h
  }

  /** `hidden_size[-1]`, the width every window is reduced to. */
  function FcWidth(net: ImuFeatFc): nat
    requires |net.hidden| > 0
  {
    net.hidden[|net.hidden| - 1]
  }

  /** The stack applied to every sample of a window, then summed. */
  function Pool(stack: Vec -> Vec, window: seq<Vec>, n: nat, h: nat): (r: Vec)
    requires StackWidths(stack, n, h)
    requires Uniform(window, n)
    ensures |r| == h
  {
    SumRows(seq(|window|, i requires 0 <= i < |window| => stack(window[i])), h)
  }

  /** A two-dimensional tensor `[t, n]`: its sample width and its rows. */
  datatype Matrix = Matrix(width: nat, rows: seq<Vec>)

  /** One window `x[b][s]`, a well-formed `[t, n]` tensor. The width belongs
      to the shape, so a window without samples still has one. */
  type Window = m: Matrix | Uniform(m.rows, m.width) witness Matrix(0, [])

  /** One window `x[b][s]`. A window of another sample width than
      `input_size` is refused by the first linear layer, even when it holds
      no samples. */
  function FcWindow(net: ImuFeatFc, stack: Vec -> Vec, window: Window): (r: Result<Vec>)
    requires |net.hidden| > 0
    requires StackWidths(stack, net.base.inputSize, FcWidth(net))
    ensures r.Ok? <==> window.width == net.base.inputSize
    ensures r.Err? ==> r.error == RuntimeError
    ensures r.Ok? ==> r.value == Pool(stack, window.rows, net.base.inputSize, FcWidth(net))
    ensures r.Ok? && |window.rows| == 0 ==> r.value == Zeros(FcWidth(net))
  {
    if window.width != net.base.inputSize then Err(RuntimeError)
    else Ok(Pool(stack, window.rows, net.base.inputSize, FcWidth(net)))
  }

  /** The inner loop `for s in range(k)` over one sequence `xb`: `IndexError`
      once `s` passes the end of a shorter sequence, unless a bad window
      before it fails first. */
  function FcSteps(net: ImuFeatFc, stack: Vec -> Vec, xb: seq<Window>, k: nat): (r: Result<seq<Vec>>)
    requires |net.hidden| > 0
    requires StackWidths(stack, net.base.inputSize, FcWidth(net))
    ensures r.Ok? <==> k <= |xb| && forall s :: 0 <= s < k ==> xb[s].width == net.base.inputSize
    ensures r.Ok? ==> |r.value| == k
    ensures r.Ok? ==> forall s :: 0 <= s < k ==>
              r.value[s] == Pool(stack, xb[s].rows, net.base.inputSize, FcWidth(net))
    ensures r.Err? && (forall s :: 0 <= s < k && s < |xb| ==> xb[s].width == net.base.inputSize) ==>
              r.error == IndexError
    ensures r.Err? && !(forall s :: 0 <= s < k && s < |xb| ==> xb[s].width == net.base.inputSize) ==>
              r.error == RuntimeError
  {
    if k == 0 then Ok([])
    else
      var prev :- FcSteps(net, stack, xb, k - 1);
      if k - 1 >= |xb| then Err(IndexError)
      else
        var v :- FcWindow(net, stack, xb[k - 1]);
        Ok(prev + [v])
  }

  /** The outer loop `for b in range(k)`: stops at the first sequence whose
      inner loop fails, with that failure. */
  function FcBatches(net: ImuFeatFc, stack: Vec -> Vec, x: seq<seq<Window>>, nSeq: nat, k: nat)
    : (r: Result<seq<seq<Vec>>>)
    requires |net.hidden| > 0
    requires StackWidths(stack, net.base.inputSize, FcWidth(net))
    requires k <= |x|
    ensures r.Ok? <==> forall b :: 0 <= b < k ==> FcSteps(net, stack, x[b], nSeq).Ok?
    ensures r.Ok? ==> |r.value| == k
    ensures r.Ok? ==> forall b :: 0 <= b < k ==> r.value[b] == FcSteps(net, stack, x[b], nSeq).value
    ensures r.Err? ==> exists b :: 0 <= b < k && FcSteps(net, stack, x[b], nSeq) == Err(r.error)
  {
    if k == 0 then Ok([])
    else
      var prev :- FcBatches(net, stack, x, nSeq, k - 1);
      var row :- FcSteps(net, stack, x[k - 1], nSeq);
      Ok(prev + [row])
  }

  /** `ImuFeatFC.forward(x)`: `x[0]` fixes the number of windows walked in
      every sequence, one pooled vector per window in batch-major order,
      `torch.stack`, then `view(batch_size, seq_size, -1)`. */
  function FcForward(net: ImuFeatFc, stack: Vec -> Vec, x: seq<seq<Window>>): (r: Result<Tensor3>)
    requires |net.hidden| > 0
    requires StackWidths(stack, net.base.inputSize, FcWidth(net))
    ensures |x| == 0 ==> r == Err(IndexError)
    ensures r.Ok? ==> |x| > 0 && |x[0]| > 0 && forall b :: 0 <= b < |x| ==> |x[b]| >= |x[0]|
    ensures r.Ok? ==> forall b, s :: 0 <= b < |x| && 0 <= s < |x[0]| ==> x[b][s].width == net.base.inputSize
    ensures r.Ok? ==> r.value.Valid() && r.value.batch == |x| && r.value.steps == net.base.seqSize
    ensures r.Ok? ==> r.value.batch * r.value.steps * r.value.width == |x| * |x[0]| * FcWidth(net)
  {
    if |x| == 0 then Err(IndexError)
    else
      var nSeq := |x[0]|;
      var pooled :- FcBatches(net, stack, x, nSeq, |x|);
      var rows := Flatten(pooled);
      FlattenLength(pooled, nSeq);
      if Stack(rows).Err? then Err(RuntimeError)
      else
        FlattenUniform(pooled, FcWidth(net));
        FlattenLength(rows, FcWidth(net));
        ViewAs3(Flatten(rows), |x|, net.base.seqSize)
  }

  /** When the first sequence holds `seq_size` windows and the walk
      succeeds, the result is the list of pooled vectors, batch-major, cut
      into runs of `seq_size`: windows past `len(x[0])` in a longer sequence
      are never visited. */
  lemma FcForwardRegroups(net: ImuFeatFc, stack: Vec -> Vec, x: seq<seq<Window>>)
    requires |net.hidden| > 0
    requires StackWidths(stack, net.base.inputSize, FcWidth(net))
    requires |x| > 0 && |x[0]| == net.base.seqSize > 0
    requires FcBatches(net, stack, x, |x[0]|, |x|).Ok?
    ensures |Flatten(FcBatches(net, stack, x, |x[0]|, |x|).value)| == |x| * net.base.seqSize
    ensures FcForward(net, stack, x) ==
              Ok(Tensor3(|x|, net.base.seqSize, FcWidth(net),
                         Group(Flatten(FcBatches(net, stack, x, |x[0]|, |x|).value), |x|, net.base.seqSize)))
  {
    var S, H := net.base.seqSize, FcWidth(net);
    var pooled := FcBatches(net, stack, x, S, |x|).value;
    FlattenLength(pooled, S);
    FlattenUniform(pooled, H);
    MulAtLeast(|x|, S);
    ViewOfRowsGroups(Flatten(pooled), H, |x|, S);
  }

  /** When every sequence holds `seq_size` windows of well-formed samples,
      the forward produces `[batch, seq_size, hidden[-1]]` and entry `[b][s]`
      is the pooled window `x[b][s]`. */
  lemma FcForwardWindows(net: ImuFeatFc, stack: Vec -> Vec, x: seq<seq<Window>>)
    requires |net.hidden| > 0
    requires StackWidths(stack, net.base.inputSize, FcWidth(net))
    requires |x| > 0 && net.base.seqSize > 0
    requires forall b :: 0 <= b < |x| ==> |x[b]| == net.base.seqSize
    requires forall b, s :: 0 <= b < |x| && 0 <= s < |x[b]| ==> x[b][s].width == net.base.inputSize
    ensures FcForward(net, stack, x).Ok?
    ensures var t := FcForward(net, stack, x).value;
            && t.Shape() == [|x|, net.base.seqSize, FcWidth(net)]
            && forall b, s :: 0 <= b < |x| && 0 <= s < net.base.seqSize ==>
                 t.data[b][s] == Pool(stack, x[b][s].rows, net.base.inputSize, FcWidth(net))
  {
    var S := net.base.seqSize;
    var pooled := FcBatches(net, stack, x, S, |x|);
    assert pooled.Ok?;
    GroupFlatten(pooled.value, |x|, S);
    FcForwardRegroups(net, stack, x);
  }

  /** A built `ImuFeatFC` produces features of the width it declares. */
  lemma FcForwardMatchesDeclared(cfg: Cfg, seqSize: nat, stack: Vec -> Vec, x: seq<seq<Window>>)
    requires NewImuFeatFc(cfg, seqSize).Ok?
    requires var net := NewImuFeatFc(cfg, seqSize).value;
             && StackWidths(stack, net.base.inputSize, FcWidth(net))
             && |x| > 0 && seqSize > 0
             && (forall b :: 0 <= b < |x| ==> |x[b]| == seqSize)
             && (forall b, s :: 0 <= b < |x| && 0 <= s < |x[b]| ==> x[b][s].width == net.base.inputSize)
    ensures var net := NewImuFeatFc(cfg, seqSize).value;
            && FcForward(net, stack, x).Ok?
            && FcForward(net, stack, x).value.Shape() == [|x|, net.outputShape[1], net.outputShape[2]]
  {
    FcForwardWindows(NewImuFeatFc(cfg, seqSize).value, stack, x);
  }

  // ---------------------------------------------------------------------
  // ImufeatRNN0.forward
  // ---------------------------------------------------------------------

  /** A batch-first recurrent layer: the output for an input `[b, t, n]` and
      an optional carried state, with the state it leaves behind. */
  type BatchFirstCell<!St> = (seq<seq<Vec>>, Option<St>) -> (seq<seq<Vec>>, St)

  /** The layer keeps to its widths: `[b, t, n]` in, `[b, t, w]` out. */
  ghost predicate BatchFirstWidths<St(!new)>(cell: BatchFirstCell<St>, b: nat, t: nat, n: nat, w: nat) {
    forall inp: seq<seq<Vec>>, h: Option<St> ::
      Tensor3(b, t, n, inp).Valid() ==> Tensor3(b, t, w, cell(inp, h).0).Valid()
  }

  /** The number of directions follows `bidirectional`, as every built
      recurrent net has it. */
  predicate Directions(net: ImuFeatRnn) {
    net.numDir == if net.bidirectional then 2 else 1
  }

  /** `x[:, k]`: step `k` of every sequence of the batch. */
  function Slice(x: Tensor4, k: nat): (r: seq<seq<Vec>>)
    requires x.Valid() && k < x.steps
    ensures Tensor3(x.batch, x.samples, x.width, r).Valid()
    ensures forall i :: 0 <= i < x.batch ==> r[i] == x.data[i][k]
  {
    seq(x.batch, i requires 0 <= i < x.batch => x.data[i][k])
  }

  /** The state carried into step `k`: none before the first step, then the
      state each step leaves behind. */
  function StateAfter<St>(cell: BatchFirstCell<St>, x: Tensor4, k: nat): Option<St>
    requires x.Valid() && k <= x.steps
    decreases k
  {
    if k == 0 then None
    else Some(cell(Slice(x, k - 1), StateAfter(cell, x, k - 1)).1)
  }

  /** The layer's output at step `k`. */
  function OutputAt<St>(cell: BatchFirstCell<St>, x: Tensor4, k: nat): seq<seq<Vec>>
    requires x.Valid() && k < x.steps
  {
    cell(Slice(x, k), StateAfter(cell, x, k)).0
  }

  /** `out.view(b, t, num_dir, H)[i, -1, 0, :]`: the first `H` entries of the
      last time step, the forward direction. */
  function LastForward(out: seq<seq<Vec>>, i: nat, t: nat, h: nat): (r: Vec)
    requires i < |out| && 0 < t == |out[i]| && h <= |out[i][t - 1]|
    ensures |r| == h
  {
    out[i][t - 1][..h]
  }

  /** `outputs[:, k, :] = column`: column `k` replaced, every other entry kept. */
  function SetColumn(data: seq<seq<Vec>>, s: nat, h: nat, k: nat, column: seq<Vec>): (r: seq<seq<Vec>>)
    requires Tensor3(|data|, s, h, data).Valid()
    requires k < s && |column| == |data| && Uniform(column, h)
    ensures Tensor3(|data|, s, h, r).Valid()
    ensures forall i :: 0 <= i < |r| ==> r[i][k] == column[i]
    ensures forall i, j :: 0 <= i < |r| && 0 <= j < s && j != k ==> r[i][j] == data[i][j]
  {
    seq(|data|, i requires 0 <= i < |data| => data[i][k := column[i]])
  }

  /** `ImufeatRNN0.forward(x)`: a zero `[b, s, H]` tensor whose column `k` is
      filled, step by step and with the state carried from the step before,
      by the forward direction of the last time step of the layer's output.
      As soon as one step runs, the layer refuses samples of another width
      than `input_size` and an empty time axis (`RuntimeError`). */
  method Rnn0Forward<St(!new)>(net: ImuFeatRnn, cell: BatchFirstCell<St>, x: Tensor4) returns (r: Result<Tensor3>)
    requires x.Valid() && Directions(net)
    requires BatchFirstWidths(cell, x.batch, x.samples, net.base.inputSize, net.numDir * net.hiddenSize)
    ensures r.Ok? <==> x.steps == 0 || (x.width == net.base.inputSize && x.samples > 0)
    ensures r.Err? ==> r.error == RuntimeError
    ensures r.Ok? ==> r.value.Valid() && r.value.Shape() == [x.batch, x.steps, net.hiddenSize]
    ensures r.Ok? ==> forall i, k :: 0 <= i < x.batch && 0 <= k < x.steps ==>
              && Tensor3(x.batch, x.samples, net.numDir * net.hiddenSize, OutputAt(cell, x, k)).Valid()
              && r.value.data[i][k] == LastForward(OutputAt(cell, x, k), i, x.samples, net.hiddenSize)
  {
    var b, s, t, h := x.batch, x.steps, x.samples, net.hiddenSize;
    var w := net.numDir * h;
    assert h <= w;
    var state: Option<St> := None;
    var data: seq<seq<Vec>> := seq(b, _ => seq(s, _ => Zeros(h)));
    var k := 0;
    while k < s
      invariant 0 <= k <= s
      invariant state == StateAfter(cell, x, k)
      invariant Tensor3(b, s, h, data).Valid()
      invariant k > 0 ==> t > 0 && x.width == net.base.inputSize
      invariant forall j :: 0 <= j < k ==> Tensor3(b, t, w, OutputAt(cell, x, j)).Valid()
      invariant forall i, j :: 0 <= i < b && 0 <= j < k ==>
                  data[i][j] == LastForward(OutputAt(cell, x, j), i, t, h)
    {
      if x.width != net.base.inputSize || t == 0 {
        return Err(RuntimeError);
      }
      var step := cell(Slice(x, k), state);
      var out := step.0;
      assert out == OutputAt(cell, x, k);
      assert Tensor3(b, t, w, out).Valid();
      var column := seq(b, i requires 0 <= i < b => LastForward(out, i, t, h));
      data := SetColumn(data, s, h, k, column);
      state := Some(step.1);
      k := k + 1;
    }
    return Ok(Tensor3(b, s, h, data));
  }

  /** Without `bidirectional` the kept vector is the whole last output. */
  lemma UnidirectionalKeepsLastOutput(out: seq<seq<Vec>>, i: nat, t: nat, h: nat)
    requires i < |out| && 0 < t == |out[i]| && |out[i][t - 1]| == 1 * h
    ensures LastForward(out, i, t, h) == out[i][t - 1]
  {
  }

  /** The state reaching step `k` depends only on the steps before it: two
      inputs that agree there carry the same state, and so give the same
      output at step `k` when they agree on it too. */
  lemma {:induction false} StateDependsOnPrefix<St>(cell: BatchFirstCell<St>, x: Tensor4, y: Tensor4, k: nat)
    requires x.Valid() && y.Valid()
    requires k <= x.steps && k <= y.steps
    requires forall j :: 0 <= j < k ==> Slice(x, j) == Slice(y, j)
    ensures StateAfter(cell, x, k) == StateAfter(cell, y, k)
    decreases k
  {
    if k > 0 {
      StateDependsOnPrefix(cell, x, y, k - 1);
    }
  }

  // ---------------------------------------------------------------------
  // ImuFeatRnn1.forward
  // ---------------------------------------------------------------------

  /** A sequence-first recurrent layer run on one window (`unsqueeze(1)`:
      a batch of one): one output row per sample. */
  type WindowCell = seq<Vec> -> seq<Vec>

  ghost predicate WindowWidths(cell: WindowCell, n: nat, w: nat) {
    forall win: seq<Vec> :: Uniform(win, n) ==> |cell(win)| == |win| && Uniform(cell(win), w)
  }

  /** One window: the forward direction of the last output row. The layer
      refuses samples of another width than `input_size` and an empty
      window (`RuntimeError`). */
  function Rnn1Window(net: ImuFeatRnn, cell: WindowCell, win: seq<Vec>): (r: Result<Vec>)
    requires Directions(net)
    requires WindowWidths(cell, net.base.inputSize, net.numDir * net.hiddenSize)
    ensures r.Ok? <==> Uniform(win, net.base.inputSize) && |win| > 0
    ensures r.Err? ==> r.error == RuntimeError
    ensures r.Ok? ==> |r.value| == net.hiddenSize
    ensures r.Ok? ==> r.value == cell(win)[|win| - 1][..net.hiddenSize]
  {
    if !Uniform(win, net.base.inputSize) || |win| == 0 then Err(RuntimeError)
    else
      var out := cell(win);
      Ok(out[|out| - 1][..net.hiddenSize])
  }

  /** `for xx in x_all`: one vector per window, stopping at the first window
      that fails. */
  function Rnn1Rows(net: ImuFeatRnn, cell: WindowCell, wins: seq<seq<Vec>>): (r: Result<seq<Vec>>)
    requires Directions(net)
    requires WindowWidths(cell, net.base.inputSize, net.numDir * net.hiddenSize)
    ensures r.Ok? <==> forall j :: 0 <= j < |wins| ==> Rnn1Window(net, cell, wins[j]).Ok?
    ensures r.Ok? ==> |r.value| == |wins| && Uniform(r.value, net.hiddenSize)
    ensures r.Ok? ==> forall j :: 0 <= j < |wins| ==> r.value[j] == Rnn1Window(net, cell, wins[j]).value
    ensures r.Err? ==> exists j :: 0 <= j < |wins| && Rnn1Window(net, cell, wins[j]) == Err(r.error)
  {
    if |wins| == 0 then Ok([])
    else
      var last := |wins| - 1;
      var prev :- Rnn1Rows(net, cell, wins[..last]);
      var v :- Rnn1Window(net, cell, wins[last]);
      Ok(prev + [v])
  }

  /** `ImuFeatRnn1.forward(x)`: the windows of all sequences flattened
      batch-major, one vector each, `torch.stack`, then
      `view(batch_size, seq_size, -1)`. */
  function Rnn1Forward(net: ImuFeatRnn, cell: WindowCell, x: seq<seq<seq<Vec>>>): (r: Result<Tensor3>)
    requires Directions(net)
    requires WindowWidths(cell, net.base.inputSize, net.numDir * net.hiddenSize)
    ensures |Flatten(x)| == 0 ==> r == Err(RuntimeError)
    ensures r.Ok? ==> forall j :: 0 <= j < |Flatten(x)| ==> Rnn1Window(net, cell, Flatten(x)[j]).Ok?
    ensures r.Ok? ==> r.value.Valid() && r.value.batch == |x| && r.value.steps == net.base.seqSize
    ensures r.Ok? ==> r.value.batch * r.value.steps * r.value.width == |Flatten(x)| * net.hiddenSize
  {
    var rows :- Rnn1Rows(net, cell, Flatten(x));
    if Stack(rows).Err? then Err(RuntimeError)
    else
      FlattenLength(rows, net.hiddenSize);
      ViewAs3(Flatten(rows), |x|, net.base.seqSize)
  }

  /** The view regroups the window vectors by their position in the
      flattened list, not by the sequence they came from: the result is the
      list of window vectors cut into runs of `seq_size`. */
  lemma Rnn1ForwardRegroups(net: ImuFeatRnn, cell: WindowCell, x: seq<seq<seq<Vec>>>)
    requires Directions(net)
    requires WindowWidths(cell, net.base.inputSize, net.numDir * net.hiddenSize)
    requires |x| > 0 && net.base.seqSize > 0
    requires |Flatten(x)| == |x| * net.base.seqSize
    requires forall j :: 0 <= j < |Flatten(x)| ==>
               Uniform(Flatten(x)[j], net.base.inputSize) && |Flatten(x)[j]| > 0
    ensures Rnn1Rows(net, cell, Flatten(x)).Ok?
    ensures Rnn1Forward(net, cell, x) ==
              Ok(Tensor3(|x|, net.base.seqSize, net.hiddenSize,
                         Group(Rnn1Rows(net, cell, Flatten(x)).value, |x|, net.base.seqSize)))
  {
    var S, H := net.base.seqSize, net.hiddenSize;
    var wins := Flatten(x);
    assert forall j :: 0 <= j < |wins| ==> Rnn1Window(net, cell, wins[j]).Ok?;
    var rows := Rnn1Rows(net, cell, wins).value;
    MulAtLeast(|x|, S);
    ViewOfRowsGroups(rows, H, |x|, S);
  }

  /** With `seq_size` windows in every sequence, the regrouped window
      vectors line up with the windows. */
  lemma RowsOfWindows(net: ImuFeatRnn, cell: WindowCell, x: seq<seq<seq<Vec>>>, S: nat)
    requires Directions(net)
    requires WindowWidths(cell, net.base.inputSize, net.numDir * net.hiddenSize)
    requires forall b :: 0 <= b < |x| ==> |x[b]| == S
    requires Rnn1Rows(net, cell, Flatten(x)).Ok?
    ensures |Flatten(x)| == |x| * S
    ensures forall b, s :: 0 <= b < |x| && 0 <= s < S ==>
              Rnn1Window(net, cell, x[b][s]).Ok?
              && Group(Rnn1Rows(net, cell, Flatten(x)).value, |x|, S)[b][s] == Rnn1Window(net, cell, x[b][s]).value
  {
    FlattenLength(x, S);
    var rows := Rnn1Rows(net, cell, Flatten(x)).value;
    var produces := (win: seq<Vec>, v: Vec) => Rnn1Window(net, cell, win) == Ok(v);
    assert forall k :: 0 <= k < |rows| ==> produces(Flatten(x)[k], rows[k]);
    forall b, s | 0 <= b < |x| && 0 <= s < S
      ensures produces(x[b][s], Group(rows, |x|, S)[b][s])
    {
      GroupPointwise(x, rows, produces, S, b, s);
    }
  }

  /** When every sequence holds `seq_size` non-empty windows of well-formed
      samples, entry `[b][s]` is the vector of window `x[b][s]`. */
  lemma Rnn1ForwardWindows(net: ImuFeatRnn, cell: WindowCell, x: seq<seq<seq<Vec>>>)
    requires Directions(net)
    requires WindowWidths(cell, net.base.inputSize, net.numDir * net.hiddenSize)
    requires |x| > 0 && net.base.seqSize > 0
    requires forall b :: 0 <= b < |x| ==> |x[b]| == net.base.seqSize
    requires forall b, s :: 0 <= b < |x| && 0 <= s < |x[b]| ==>
               Uniform(x[b][s], net.base.inputSize) && |x[b][s]| > 0
    ensures Rnn1Forward(net, cell, x).Ok?
    ensures var t := Rnn1Forward(net, cell, x).value;
            && t.Shape() == [|x|, net.base.seqSize, net.hiddenSize]
            && forall b, s :: 0 <= b < |x| && 0 <= s < net.base.seqSize ==>
                 t.data[b][s] == Rnn1Window(net, cell, x[b][s]).value
  {
    var S := net.base.seqSize;
    GroupFlatten(x, |x|, S);
    FlattenForall(x, win => Uniform(win, net.base.inputSize) && |win| > 0);
    Rnn1ForwardRegroups(net, cell, x);
    RowsOfWindows(net, cell, x, S);
  }

  /** A built `ImuFeatRnn1` produces features of the shape it declares. */
  lemma Rnn1ForwardMatchesDeclared(cfg: Cfg, seqSize: nat, cell: WindowCell, x: seq<seq<seq<Vec>>>)
    requires NewImuFeatRnn1(cfg, seqSize).Ok?
    requires var net := NewImuFeatRnn1(cfg, seqSize).value;
             && WindowWidths(cell, net.base.inputSize, net.numDir * net.hiddenSize)
             && |x| > 0 && seqSize > 0
             && (forall b :: 0 <= b < |x| ==> |x[b]| == seqSize)
             && (forall b, s :: 0 <= b < |x| && 0 <= s < |x[b]| ==>
                   Uniform(x[b][s], net.base.inputSize) && |x[b][s]| > 0)
    ensures var net := NewImuFeatRnn1(cfg, seqSize).value;
            && Rnn1Forward(net, cell, x).Ok?
            && Rnn1Forward(net, cell, x).value.Shape() == [|x|, net.outputShape[1], net.outputShape[2]]
  {
    Rnn1ForwardWindows(NewImuFeatRnn1(cfg, seqSize).value, cell, x);
  }
}

=== FILE: meters.dfy ===
/** The training-progress bookkeeping of deeplio/models/worker.py:
    `AverageMeter`, a running weighted mean of a scalar, and `ProgressMeter`,
    which renders a `[  k/N]` batch counter followed by the meters, tab
    separated. Number formatting with a format spec such as `:f` is a
    parameter (`render`); the integer counter is modelled exactly. */
module Meters {
  import opened Wrappers
  import Text

  // ---------------------------------------------------------------------
  // AverageMeter
  // ---------------------------------------------------------------------

  datatype AverageMeter = AverageMeter(name: string, fmt: string, val: real, avg: real, sum: real, count: int)

  /** `avg = sum / count` whenever something was counted; nothing averaged yet otherwise. */
  predicate Consistent(m: AverageMeter) {
    if m.count == 0 then m.avg == 0.0 && m.sum == 0.0 else m.avg * (m.count as real) == m.sum
  }

  /** `reset()`: every statistic back to zero, name and format kept. */
  function Reset(m: AverageMeter): (r: AverageMeter)
    ensures r.name == m.name && r.fmt == m.fmt
    ensures r.val == 0.0 && r.avg == 0.0 && r.sum == 0.0 && r.count == 0
    ensures Consistent(r)
  {
    m.(val := 0.0, avg := 0.0, sum := 0.0, count := 0)
  }

  /** `AverageMeter(name, fmt=':f')`: the constructor calls `reset`. */
  function NewAverageMeter(name: string, fmt: Option<string>): (r: AverageMeter)
    ensures r.name == name
    ensures fmt.None? ==> r.fmt == ":f"
    ensures fmt.Some? ==> r.fmt == fmt.value
    ensures r.count == 0 && r.sum == 0.0 && r.avg == 0.0 && r.val == 0.0
  {
    var f := match fmt case Some(s) => s case None => ":f";
    Reset(AverageMeter(name, f, 0.0, 0.0, 0.0, 0))
  }

  /** The meter after an `update`, and the exception it raised, if any. */
  datatype Step = Step(meter: AverageMeter, raised: Option<Exception>)

  /** `update(val, n=1)`: `val`, `sum` and `count` are assigned before the
      division, so when the new count is zero the meter keeps them and its
      old `avg` while the call raises `ZeroDivisionError`. An omitted `n`
      counts one. */
  function Update(m: AverageMeter, v: real, n: Option<int>): (r: Step)
    ensures r.meter.name == m.name && r.meter.fmt == m.fmt
    ensures r.meter.val == v
    ensures var k := if n.Some? then n.value else 1;
            && r.meter.sum == m.sum + v * (k as real)
            && r.meter.count == m.count + k
            && (r.raised.Some? <==> m.count + k == 0)
    ensures r.raised.Some? ==> r.raised.value == ZeroDivisionError && r.meter.avg == m.avg
    ensures r.raised.None? ==> r.meter.avg * (r.meter.count as real) == r.meter.sum
  {
    var k := match n case Some(k) => k case None => 1;
    var m1 := m.(val := v, sum := m.sum + v * (k as real), count := m.count + k);
    if m1.count == 0 then Step(m1, Some(ZeroDivisionError))
    else Step(m1.(avg := m1.sum / (m1.count as real)), None)
  }

  /** An update that does not raise leaves a consistent meter, whatever the
      meter was before. */
  lemma UpdateKeepsConsistent(m: AverageMeter, v: real, n: Option<int>)
    requires m.count + (if n.Some? then n.value else 1) != 0
    ensures Update(m, v, n).raised.None?
    ensures Consistent(Update(m, v, n).meter)
  {
  }

  /** A sequence of `update(val, n)` calls; the first one that raises stops it. */
  function UpdateAll(m: AverageMeter, us: seq<(real, int)>): (r: Step)
    ensures r.meter.name == m.name && r.meter.fmt == m.fmt
    ensures |us| == 0 ==> r == Step(m, None)
    decreases |us|
  {
    if |us| == 0 then Step(m, None)
    else
      var s := Update(m, us[0].0, Some(us[0].1));
      if s.raised.Some? then s else UpdateAll(s.meter, us[1..])
  }

  /** `Σ val_i * n_i`, the independent reference for the running sum. */
  function WeightedSum(us: seq<(real, int)>): real {
    if |us| == 0 then 0.0 else WeightedSum(us[..|us| - 1]) + us[|us| - 1].0 * (us[|us| - 1].1 as real)
  }

  /** `Σ n_i`. */
  function TotalCount(us: seq<(real, int)>): int {
    if |us| == 0 then 0 else TotalCount(us[..|us| - 1]) + us[|us| - 1].1
  }

  /** No prefix of the updates brings the count back to zero. */
  predicate NeverZero(us: seq<(real, int)>) {
    forall k :: 1 <= k <= |us| ==> TotalCount(us[..k]) != 0
  }

  lemma {:induction false} UpdateAllSnoc(m: AverageMeter, us: seq<(real, int)>, u: (real, int))
    requires UpdateAll(m, us).raised.None?
    ensures UpdateAll(m, us + [u]) == Update(UpdateAll(m, us).meter, u.0, Some(u.1))
    decreases |us|
  {
    if |us| == 0 {
      assert us + [u] == [u];
      assert [u][1..] == [];
    } else {
      var s := Update(m, us[0].0, Some(us[0].1));
      assert (us + [u])[0] == us[0];
      assert (us + [u])[1..] == us[1..] + [u];
      UpdateAllSnoc(s.meter, us[1..], u);
    }
  }

  /** Dropping the last update keeps the running count away from zero, and
      the full count is itself non-zero. */
  lemma {:induction false} NeverZeroInit(us: seq<(real, int)>)
    requires NeverZero(us) && |us| > 0
    ensures NeverZero(us[..|us| - 1]) && TotalCount(us) != 0
  {
    var init := us[..|us| - 1];
    forall k | 1 <= k <= |init|
      ensures TotalCount(init[..k]) != 0
    {
      assert init[..k] == us[..k];
    }
    assert us[..|us|] == us;
  }

  /** One update of a meter holding the totals `sum` and `count`, when the
      new count is not zero. */
  lemma UpdateMean(prev: AverageMeter, u: (real, int))
    requires prev.count + u.1 != 0
    ensures var s := Update(prev, u.0, Some(u.1));
            && s.raised.None?
            && s.meter.val == u.0
            && s.meter.sum == prev.sum + u.0 * (u.1 as real)
            && s.meter.count == prev.count + u.1
            && s.meter.avg == s.meter.sum / (s.meter.count as real)
  {
  }

  /** After `reset` and updates `(v_i, n_i)` whose running count never
      returns to zero, no update raises, `sum` and `count` are the totals,
      `val` is the last value and `avg` is the weighted mean
      `Σ v_i n_i / Σ n_i`. */
  lemma {:induction false} RunningMean(m: AverageMeter, us: seq<(real, int)>)
    requires NeverZero(us)
    ensures var r := UpdateAll(Reset(m), us);
            && r.raised.None?
            && r.meter.sum == WeightedSum(us)
            && r.meter.count == TotalCount(us)
            && (|us| > 0 ==> r.meter.val == us[|us| - 1].0)
            && (|us| > 0 ==> TotalCount(us) != 0 && r.meter.avg == WeightedSum(us) / (TotalCount(us) as real))
    decreases |us|
  {
    if |us| > 0 {
      var init := us[..|us| - 1];
      var u := us[|us| - 1];
      NeverZeroInit(us);
      RunningMean(m, init);
      assert us == init + [u];
      UpdateAllSnoc(Reset(m), init, u);
      UpdateMean(UpdateAll(Reset(m), init).meter, u);
    }
  }

  /** `str(meter)`: `'{name} {val<fmt>} ({avg<fmt>})'`, with `render(fmt, x)`
      standing for Python's formatting of `x` under the spec `fmt`: the
      name, a space, the value, a space and an opening parenthesis, the
      average, a closing parenthesis. */
  function MeterText(m: AverageMeter, render: (string, real) -> string): (r: string)
    ensures var n, a, b := |m.name|, render(m.fmt, m.val), render(m.fmt, m.avg);
            && |r| == n + |a| + |b| + 4
            && r[..n] == m.name
            && r[n] == ' '
            && r[n + 1..n + 1 + |a|] == a
            && r[n + 1 + |a|..n + 3 + |a|] == " ("
            && r[n + 3 + |a|..|r| - 1] == b
            && r[|r| - 1] == ')'
  {
    m.name + " " + render(m.fmt, m.val) + " (" + render(m.fmt, m.avg) + ")"
  }

  /** The text splits on spaces into the name, the value and the
      parenthesised average, when none of them holds a space. */
  lemma MeterTextSplits(m: AverageMeter, render: (string, real) -> string)
    requires ' ' !in m.name
    requires ' ' !in render(m.fmt, m.val) && ' ' !in render(m.fmt, m.avg)
    ensures Text.Split(MeterText(m, render), ' ') == [m.name, render(m.fmt, m.val), "(" + render(m.fmt, m.avg) + ")"]
  {
    var a, b := render(m.fmt, m.val), render(m.fmt, m.avg);
    var parts := [m.name, a, "(" + b + ")"];
    assert ' ' !in "(" + b + ")" by {
      assert forall i :: 0 <= i < |b| ==> ("(" + b + ")")[i + 1] == b[i];
    }
    assert Text.Join(parts, ' ') == MeterText(m, render) by {
      assert Text.Join(parts[2..], ' ') == parts[2];
      assert Text.Join(parts[1..], ' ') == a + [' '] + ("(" + b + ")");
    }
    Text.SplitJoin(parts, ' ');
  }

  /** A meter's text holds a tab only if its name or a rendered number does. */
  lemma MeterTextTabFree(m: AverageMeter, render: (string, real) -> string)
    requires '\t' !in m.name
    requires '\t' !in render(m.fmt, m.val) && '\t' !in render(m.fmt, m.avg)
    ensures '\t' !in MeterText(m, render)
  {
    var a, b := render(m.fmt, m.val), render(m.fmt, m.avg);
    assert MeterText(m, render) == m.name + " " + a + " (" + b + ")";
    assert '\t' !in " " && '\t' !in " (" && '\t' !in ")";
  }

  // ---------------------------------------------------------------------
  // ProgressMeter
  // ---------------------------------------------------------------------

  /** The batch counter format `'[' + '{:W' + 'd}' + '/' + total + ']'`. */
  datatype BatchFormat = BatchFormat(width: nat, total: string) {

    /** `.format(batch)`: the batch number right-aligned in `width` columns. */
    function Apply(batch: int): string {
      "[" + Text.PadLeft(Text.IntToString(batch), width) + "/" + total + "]"
    }
  }

  /** `_get_batch_fmtstr(num_batches)`: the width is the length of
      `str(num_batches // 1)`, and the total is `num_batches` formatted in
      that width. */
  function GetBatchFmtStr(numBatches: int): (r: BatchFormat)
    ensures r.width == |Text.IntToString(numBatches)|
    ensures r.total == Text.IntToString(numBatches)
  {
    var numDigits := |Text.IntToString(numBatches / 1)|;
    BatchFormat(numDigits, Text.PadLeft(Text.IntToString(numBatches), numDigits))
  }

  /** `c` shows `s` right-aligned in the `w` columns after its first
      character: spaces first, then `s`. */
  predicate ShowsRightAligned(c: string, s: string, w: nat) {
    && |s| <= w && 1 + w <= |c|
    && (forall i :: 1 <= i <= w - |s| ==> c[i] == ' ')
    && c[1 + w - |s|..1 + w] == s
  }

  /** Where the right-aligned text sits in `c == [padded/total]`: after the
      aligning spaces, ending just before the slash. */
  lemma BracketLayout(c: string, s: string, w: nat, total: string)
    requires |s| <= w
    requires c == "[" + Text.PadLeft(s, w) + "/" + total + "]"
    ensures |c| == w + |total| + 3
    ensures ShowsRightAligned(c, s, w)
  {
    BracketField(c, s, w, total);
    var field := c[1..1 + w];
    forall i | 1 <= i <= w - |s|
      ensures c[i] == ' '
    {
      assert c[i] == field[i - 1];
    }
    assert c[1 + w - |s|..1 + w] == field[w - |s|..];
  }

  /** The counter of a batch `k` with `0 <= k <= N` is `str(k)` padded to
      the width of `str(N)`. */
  lemma CounterOfBatch(numBatches: nat, batch: nat)
    requires batch <= numBatches
    ensures |Text.NatToString(batch)| <= GetBatchFmtStr(numBatches).width == |Text.NatToString(numBatches)|
    ensures GetBatchFmtStr(numBatches).Apply(batch)
              == "[" + Text.PadLeft(Text.NatToString(batch), GetBatchFmtStr(numBatches).width)
                 + "/" + Text.NatToString(numBatches) + "]"
  {
    Text.DigitsMonotone(batch, numBatches);
  }

  /** For every batch from 0 to `N` the counter has the same length, so the
      counters of one epoch line up, and it shows `str(k)` right-aligned in
      the width of `str(N)`. */
  lemma CounterAligned(numBatches: nat, batch: nat)
    requires batch <= numBatches
    ensures |GetBatchFmtStr(numBatches).Apply(batch)| == 2 * |Text.NatToString(numBatches)| + 3
    ensures ShowsRightAligned(GetBatchFmtStr(numBatches).Apply(batch), Text.NatToString(batch), |Text.NatToString(numBatches)|)
  {
    CounterOfBatch(numBatches, batch);
    BracketLayout(GetBatchFmtStr(numBatches).Apply(batch), Text.NatToString(batch),
                  |Text.NatToString(numBatches)|, Text.NatToString(numBatches));
  }

  /** The field between the bracket and the slash is the padded text. */
  lemma BracketField(c: string, s: string, w: nat, total: string)
    requires |s| <= w
    requires c == "[" + Text.PadLeft(s, w) + "/" + total + "]"
    ensures 1 + w <= |c| && c[1..1 + w] == Text.PadLeft(s, w)
  {
    var padded := Text.PadLeft(s, w);
    assert c == "[" + (padded + ("/" + total + "]"));
    assert (padded + ("/" + total + "]"))[..w] == padded;
  }

  /** Stripping the aligning spaces from the field of `[padded/total]`
      gives back the number text, when that text starts with a digit. */
  lemma FieldReadsBack(c: string, s: string, w: nat, total: string)
    requires |s| <= w && |s| > 0 && Text.AllDigits(s)
    requires c == "[" + Text.PadLeft(s, w) + "/" + total + "]"
    ensures 1 + w <= |c| && Text.TrimLeadingSpaces(c[1..1 + w]) == s
  {
    BracketField(c, s, w, total);
    assert Text.IsDigit(s[0]);
    Text.TrimPadLeft(s, w);
  }

  /** Every batch number up to `N` fits the width of the counter. */
  lemma {:induction false} BatchFits(numBatches: nat, batch: nat)
    requires batch <= numBatches
    ensures |Text.NatToString(batch)| <= GetBatchFmtStr(numBatches).width
  {
    assert GetBatchFmtStr(numBatches).width == |Text.NatToString(numBatches)|;
    Text.DigitsMonotone(batch, numBatches);
  }

  /** The field of a counter holding `str(n)` in at least its own width,
      stripped of its aligning spaces, is a decimal number that reads back
      as `n`; with `BatchFits` this holds for every batch of an epoch. */
  lemma {:induction false} FieldParses(f: BatchFormat, n: nat)
    requires |Text.NatToString(n)| <= f.width
    ensures 1 + f.width <= |f.Apply(n)|
    ensures Text.AllDigits(Text.TrimLeadingSpaces(f.Apply(n)[1..1 + f.width]))
    ensures Text.ParseNat(Text.TrimLeadingSpaces(f.Apply(n)[1..1 + f.width])) == n
  {
    FieldReadsBack(f.Apply(n), Text.NatToString(n), f.width, f.total);
    Text.ParseNatToString(n);
  }

  datatype ProgressMeter = ProgressMeter(batchFmt: BatchFormat, meters: seq<AverageMeter>, prefix: string)

  /** `ProgressMeter(logger, num_batches, meters, prefix="")`; the logger is
      where `display` prints, outside the model. */
  function NewProgressMeter(numBatches: int, meters: seq<AverageMeter>, prefix: string): (r: ProgressMeter)
    ensures r.batchFmt == GetBatchFmtStr(numBatches) && r.meters == meters && r.prefix == prefix
  {
    ProgressMeter(GetBatchFmtStr(numBatches), meters, prefix)
  }

  /** The text of every meter, in order. */
  function MeterTexts(meters: seq<AverageMeter>, render: (string, real) -> string): (r: seq<string>)
    ensures |r| == |meters|
    ensures forall i :: 0 <= i < |meters| ==> r[i] == MeterText(meters[i], render)
  {
    seq(|meters|, i requires 0 <= i < |meters| => MeterText(meters[i], render))
  }

  /** The entries of one progress line: the prefixed counter, then every meter. */
  function Entries(pm: ProgressMeter, batch: int, render: (string, real) -> string): (r: seq<string>)
    ensures |r| == |pm.meters| + 1
    ensures r[0] == pm.prefix + pm.batchFmt.Apply(batch)
    ensures forall i :: 0 <= i < |pm.meters| ==> r[i + 1] == MeterText(pm.meters[i], render)
  {
    [pm.prefix + pm.batchFmt.Apply(batch)] + MeterTexts(pm.meters, render)
  }

  /** `display(batch)`: the line handed to the logger, the prefix and the
      batch counter first, then one tab and the meters' texts for each
      meter. */
  function Display(pm: ProgressMeter, batch: int, render: (string, real) -> string): (r: string)
    ensures var head := pm.prefix + pm.batchFmt.Apply(batch);
            && |head| <= |r| && r[..|head|] == head
            && (|pm.meters| == 0 ==> r == head)
            && (|pm.meters| > 0 ==>
                  var first := MeterText(pm.meters[0], render);
                  && |head| + 1 + |first| <= |r|
                  && r[|head|] == '\t'
                  && r[|head| + 1..|head| + 1 + |first|] == first)
  {
    var es := Entries(pm, batch, render);
    var r := Text.Join(es, '\t');
    assert |es| > 1 ==> r == es[0] + ['\t'] + Text.Join(es[1..], '\t') && es[1..][0] == es[1];
    r
  }

  /** A rendered integer holds no tab. */
  lemma IntTextTabFree(n: int, w: nat)
    ensures '\t' !in Text.IntToString(n)
    ensures '\t' !in Text.PadLeft(Text.IntToString(n), w)
  {
    var s := Text.IntToString(n);
    var p := Text.PadLeft(s, w);
    assert forall i :: 0 <= i < |s| ==> s[i] != '\t';
    forall i | 0 <= i < |p|
      ensures p[i] != '\t'
    {
      var lead := |p| - |s|;
      if i >= lead {
        assert p[lead..][i - lead] == p[i];
      }
    }
  }

  /** The batch counter holds no tab. */
  lemma CounterTabFree(numBatches: int, batch: int)
    ensures '\t' !in GetBatchFmtStr(numBatches).Apply(batch)
  {
    var fmt := GetBatchFmtStr(numBatches);
    IntTextTabFree(batch, fmt.width);
    IntTextTabFree(numBatches, 0);
    assert fmt.total == Text.PadLeft(Text.IntToString(numBatches), 0);
    assert '\t' !in "[" && '\t' !in "/" && '\t' !in "]";
  }

  /** When the prefix, meter names and rendered numbers hold no tab, the
      line splits on tabs back into the counter and the meters, in order. */
  lemma DisplaySplits(numBatches: int, meters: seq<AverageMeter>, prefix: string, batch: int,
                      render: (string, real) -> string)
    requires '\t' !in prefix
    requires forall i :: 0 <= i < |meters| ==> '\t' !in meters[i].name
    requires forall f: string, x: real :: '\t' !in render(f, x)
    ensures var pm := NewProgressMeter(numBatches, meters, prefix);
            Text.Split(Display(pm, batch, render), '\t') == Entries(pm, batch, render)
  {
    var pm := NewProgressMeter(numBatches, meters, prefix);
    var es := Entries(pm, batch, render);
    CounterTabFree(numBatches, batch);
    forall k | 0 <= k < |es|
      ensures '\t' !in es[k]
    {
      if k > 0 {
        MeterTextTabFree(meters[k - 1], render);
      }
    }
    Text.SplitJoin(es, '\t');
  }
}

=== FILE: tensors.dfy ===
/** Tensors as the model sees them. A tensor's shape is a `Dims` (torch's
    `Size`); the feature tensors the IMU nets and the fusion layer produce are
    also modelled with their contents, as `Tensor3` over mathematical reals.
    `Stack` and `ViewAs3` are torch's `stack` of equal-width vectors and
    `view(d0, d1, -1)`, the two reshaping steps the feature nets perform. */
module Tensors {
  import opened Wrappers

  /** The shape of a tensor, outermost dimension first. */
  type Dims = seq<nat>

  /** One feature vector (the innermost dimension of a tensor). */
  type Vec = seq<real>

  /** The layer primitives of the framework, known to the model only by the
      widths they are built with. */
  datatype Layer = Linear(inFeatures: nat, outFeatures: nat) | Dropout(p: real)

  /** A three-dimensional tensor `[batch, steps, width]` with its contents. */
  datatype Tensor3 = Tensor3(batch: nat, steps: nat, width: nat, data: seq<seq<Vec>>) {

    /** The contents are a rectangular block of the declared shape. */
    predicate Valid() {
      && |data| == batch
      && (forall i :: 0 <= i < |data| ==> |data[i]| == steps)
      && (forall i, j :: 0 <= i < |data| && 0 <= j < |data[i]| ==> |data[i][j]| == width)
    }

    function Shape(): Dims {
      [batch, steps, width]
    }
  }

  /** A four-dimensional tensor `[batch, steps, samples, width]`: a batch of
      sequences of windows of IMU samples. */
  datatype Tensor4 = Tensor4(batch: nat, steps: nat, samples: nat, width: nat, data: seq<seq<seq<Vec>>>) {

    predicate Valid() {
      && |data| == batch
      && (forall i :: 0 <= i < |data| ==> Tensor3(steps, samples, width, data[i]).Valid())
    }
  }

  /** The product of the dimensions: the number of elements. */
  function Numel(d: Dims): nat {
    if |d| == 0 then 1 else d[0] * Numel(d[1..])
  }

  // ---------------------------------------------------------------------
  // Rows of vectors, flat data and their regrouping
  // ---------------------------------------------------------------------

  /** Every row has width `w`. */
  predicate Uniform(rows: seq<Vec>, w: nat) {
    forall i :: 0 <= i < |rows| ==> |rows[i]| == w
  }

  /** The elements of the lists in order: the storage of a stacked tensor,
      and `[xx for x_ in x for xx in x_]`. */
  function Flatten<T>(xss: seq<seq<T>>): seq<T> {
    if |xss| == 0 then [] else xss[0] + Flatten(xss[1..])
  }

  lemma {:induction false} FlattenLength<T>(xss: seq<seq<T>>, w: nat)
    requires forall i :: 0 <= i < |xss| ==> |xss[i]| == w
    ensures |Flatten(xss)| == |xss| * w
  {
    if |xss| > 0 {
      FlattenLength(xss[1..], w);
    }
  }

  /** A property of every item of every list holds of every item of the flattening. */
  lemma {:induction false} FlattenForall<T>(xss: seq<seq<T>>, p: T -> bool)
    requires forall i, j :: 0 <= i < |xss| && 0 <= j < |xss[i]| ==> p(xss[i][j])
    ensures forall k :: 0 <= k < |Flatten(xss)| ==> p(Flatten(xss)[k])
  {
    if |xss| > 0 {
      FlattenForall(xss[1..], p);
      assert forall k :: 0 <= k < |xss[0]| ==> p(xss[0][k]);
    }
  }

  lemma {:induction false} FlattenUniform(xss: seq<seq<Vec>>, w: nat)
    requires forall i :: 0 <= i < |xss| ==> Uniform(xss[i], w)
    ensures Uniform(Flatten(xss), w)
  {
    if |xss| > 0 {
      FlattenUniform(xss[1..], w);
    }
  }

  /** Cutting flat data into `n` consecutive rows of width `w`. */
  function Chop(flat: Vec, n: nat, w: nat): (rows: seq<Vec>)
    requires |flat| == n * w
    ensures |rows| == n
    ensures Uniform(rows, w)
  {
    if n == 0 then []
    else
      assert |flat| == w + (n - 1) * w;
      [flat[..w]] + Chop(flat[w..], n - 1, w)
  }

  /** Chopping the storage of equal-width rows gives the rows back. */
  lemma {:induction false} ChopFlatten(rows: seq<Vec>, w: nat)
    requires Uniform(rows, w)
    ensures |Flatten(rows)| == |rows| * w
    ensures Chop(Flatten(rows), |rows|, w) == rows
  {
    FlattenLength(rows, w);
    if |rows| > 0 {
      ChopFlatten(rows[1..], w);
      assert Flatten(rows)[..w] == rows[0];
      assert Flatten(rows)[w..] == Flatten(rows[1..]);
    }
  }

  /** Grouping `d0 * d1` items into `d0` blocks of `d1` consecutive items. */
  function Group<T>(items: seq<T>, d0: nat, d1: nat): (t: seq<seq<T>>)
    requires |items| == d0 * d1
    ensures |t| == d0
    ensures forall i :: 0 <= i < d0 ==> |t[i]| == d1
  {
    if d0 == 0 then []
    else
      assert |items| == d1 + (d0 - 1) * d1;
      [items[..d1]] + Group(items[d1..], d0 - 1, d1)
  }

  /** Block `i`, item `j` of a grouping is item `i * d1 + j`: the batch-major order. */
  lemma {:induction false} GroupIndex<T>(items: seq<T>, d0: nat, d1: nat, i: nat, j: nat)
    requires |items| == d0 * d1
    requires i < d0 && j < d1
    ensures i * d1 + j < |items|
    ensures Group(items, d0, d1)[i][j] == items[i * d1 + j]
    decreases i
  {
    assert d0 * d1 == (d0 - 1) * d1 + d1;
    var tail := items[d1..];
    assert |tail| == (d0 - 1) * d1;
    if i == 0 {
      assert Group(items, d0, d1)[0] == items[..d1];
    } else {
      GroupIndex(tail, d0 - 1, d1, i - 1, j);
      assert i * d1 == (i - 1) * d1 + d1;
      assert Group(items, d0, d1)[i] == Group(tail, d0 - 1, d1)[i - 1];
      assert tail[(i - 1) * d1 + j] == items[i * d1 + j];
    }
  }

  /** Grouping undoes flattening lists of equal length. */
  lemma {:induction false} GroupFlatten<T>(xss: seq<seq<T>>, d0: nat, d1: nat)
    requires |xss| == d0
    requires forall i :: 0 <= i < d0 ==> |xss[i]| == d1
    ensures |Flatten(xss)| == d0 * d1
    ensures Group(Flatten(xss), d0, d1) == xss
  {
    FlattenLength(xss, d1);
    if d0 > 0 {
      GroupFlatten(xss[1..], d0 - 1, d1);
      var f := Flatten(xss);
      assert f[..d1] == xss[0];
      assert f[d1..] == Flatten(xss[1..]);
      assert xss == [xss[0]] + xss[1..];
    }
  }

  /** Item `j` of list `i` sits at `i * d1 + j` of the flattening. */
  lemma FlattenIndex<T>(xss: seq<seq<T>>, d0: nat, d1: nat, i: nat, j: nat)
    requires |xss| == d0
    requires forall k :: 0 <= k < d0 ==> |xss[k]| == d1
    requires i < d0 && j < d1
    ensures i * d1 + j < |Flatten(xss)|
    ensures Flatten(xss)[i * d1 + j] == xss[i][j]
  {
    GroupFlatten(xss, d0, d1);
    GroupIndex(Flatten(xss), d0, d1, i, j);
  }

  /** A relation that holds between every flattened item and the matching
      row holds between every item and the row grouped to its place. */
  lemma GroupPointwise<T, U>(xss: seq<seq<T>>, rows: seq<U>, rel: (T, U) -> bool, d1: nat, i: nat, j: nat)
    requires forall k :: 0 <= k < |xss| ==> |xss[k]| == d1
    requires |rows| == |xss| * d1 && |Flatten(xss)| == |rows|
    requires forall k :: 0 <= k < |rows| ==> rel(Flatten(xss)[k], rows[k])
    requires i < |xss| && j < d1
    ensures rel(xss[i][j], Group(rows, |xss|, d1)[i][j])
  {
    FlattenIndex(xss, |xss|, d1, i, j);
    GroupIndex(rows, |xss|, d1, i, j);
  }

  // ---------------------------------------------------------------------
  // stack and view
  // ---------------------------------------------------------------------

  /** `torch.stack(rows)` for one-dimensional rows: refused for an empty list or
      rows of different widths; otherwise the width of the stacked matrix. */
  function Stack(rows: seq<Vec>): (r: Result<nat>)
    ensures r.Ok? <==> |rows| > 0 && Uniform(rows, |rows[0]|)
    ensures r.Ok? ==> Uniform(rows, r.value)
    ensures r.Err? ==> r.error == RuntimeError
  {
    if |rows| == 0 then Err(RuntimeError)
    else if Uniform(rows, |rows[0]|) then Ok(|rows[0]|)
    else Err(RuntimeError)
  }

  /** `flat.view(d0, d1, -1)`: the inferred last dimension must be unique,
      so the given dimensions must not be zero, and they must divide the
      number of elements (an empty tensor gives a last dimension of zero);
      the elements keep their order. */
  function ViewAs3(flat: Vec, d0: nat, d1: nat): (r: Result<Tensor3>)
    ensures r.Ok? <==> d0 * d1 > 0 && |flat| % (d0 * d1) == 0
    ensures r.Ok? ==> r.value.Valid() && r.value.batch == d0 && r.value.steps == d1
    ensures r.Ok? ==> r.value.batch * r.value.steps * r.value.width == |flat|
    ensures r.Err? ==> r.error == RuntimeError
  {
    if d0 * d1 == 0 || |flat| % (d0 * d1) != 0 then Err(RuntimeError)
    else
      var w := |flat| / (d0 * d1);
      assert |flat| == (d0 * d1) * w;
      var t := Tensor3(d0, d1, w, Group(Chop(flat, d0 * d1, w), d0, d1));
      assert t.Valid() by {
        forall i, j | 0 <= i < d0 && 0 <= j < d1
          ensures |t.data[i][j]| == w
        {
          GroupIndex(Chop(flat, d0 * d1, w), d0, d1, i, j);
        }
      }
      Ok(t)
  }

  lemma {:induction false} MulAtLeast(a: nat, k: nat)
    requires k >= 1
    ensures a * k >= a
  {
    if k > 1 {
      MulAtLeast(a, k - 1);
      assert k * a == (k - 1) * a + a;
    }
  }

  /** Division undoes multiplication by a positive number. */
  lemma DivExact(a: nat, w: nat)
    requires a > 0
    ensures (a * w) % a == 0
    ensures (a * w) / a == w
  {
    var q, r := (a * w) / a, (a * w) % a;
    assert a * w == a * q + r && 0 <= r < a;
    if q < w {
      MulAtLeast(a, w - q);
    }
  }

  /** Viewing the storage of `d0 * d1` rows of width `w` as `[d0, d1, -1]`
      groups the rows themselves. */
  lemma ViewOfRowsGroups(rows: seq<Vec>, w: nat, d0: nat, d1: nat)
    requires Uniform(rows, w)
    requires |rows| == d0 * d1 && d0 * d1 > 0
    ensures ViewAs3(Flatten(rows), d0, d1) == Ok(Tensor3(d0, d1, w, Group(rows, d0, d1)))
  {
    var flat := Flatten(rows);
    ChopFlatten(rows, w);
    DivExact(d0 * d1, w);
    MulAtLeast(w, d0 * d1);
    assert |flat| / (d0 * d1) == w;
  }
}

=== FILE: text.dfy ===
/** The few pieces of Python string behaviour the model relies on:
    `str.lower` (ASCII letters only), `str(int)`, right alignment of a
    number in a field of minimum width, and `sep.join` / `str.split(sep)`
    for a one-character separator. */
module Text {

  // ---------------------------------------------------------------------
  // Lower-casing
  // ---------------------------------------------------------------------

  predicate IsUpper(c: char) {
    'A' <= c <= 'Z'
  }

  function LowerChar(c: char): (r: char)
    ensures !IsUpper(r)
    ensures !IsUpper(c) ==> r == c
    ensures IsUpper(c) ==> r as int == c as int + 32
  {
    if IsUpper(c) then (c as int + 32) as char else c
  }

  /** `s.lower()` restricted to ASCII letters. */
  function Lower(s: string): (r: string)
    ensures |r| == |s|
    ensures forall i :: 0 <= i < |r| ==> !IsUpper(r[i])
    ensures forall i :: 0 <= i < |s| && !IsUpper(s[i]) ==> r[i] == s[i]
    ensures forall i :: 0 <= i < |s| && IsUpper(s[i]) ==> r[i] as int == s[i] as int + 32
  {
    if |s| == 0 then "" else [LowerChar(s[0])] + Lower(s[1..])
  }

  /** Lower-casing twice is lower-casing once. */
  lemma {:induction false} LowerIdempotent(s: string)
    ensures Lower(Lower(s)) == Lower(s)
  {
    if |s| > 0 {
      LowerIdempotent(s[1..]);
      assert Lower(s)[1..] == Lower(s[1..]);
    }
  }

  // ---------------------------------------------------------------------
  // Decimal rendering of integers
  // ---------------------------------------------------------------------

  predicate IsDigit(c: char) {
    '0' <= c <= '9'
  }

  function DigitChar(d: nat): (c: char)
    requires d < 10
    ensures IsDigit(c)
    ensures c as int - '0' as int == d
  {
    ('0' as int + d) as char
  }

  /** `str(n)` for a non-negative integer: its decimal digits, most significant first. */
  function NatToString(n: nat): (r: string)
    ensures |r| >= 1
    ensures forall i :: 0 <= i < |r| ==> IsDigit(r[i])
    decreases n
  {
    if n < 10 then [DigitChar(n)] else NatToString(n / 10) + [DigitChar(n % 10)]
  }

  /** `str(n)` for any integer: a minus sign in front of negative numbers. */
  function IntToString(n: int): (r: string)
    ensures |r| >= 1
    ensures n >= 0 ==> forall i :: 0 <= i < |r| ==> IsDigit(r[i])
    ensures n < 0 ==> r[0] == '-'
    ensures forall i :: 0 <= i < |r| ==> IsDigit(r[i]) || r[i] == '-'
  {
    if n < 0 then "-" + NatToString(-n) else NatToString(n)
  }

  function DigitValue(c: char): nat
    requires IsDigit(c)
  {
    c as int - '0' as int
  }

  predicate AllDigits(s: string) {
    forall i :: 0 <= i < |s| ==> IsDigit(s[i])
  }

  /** Reading decimal digits back, the inverse of `NatToString`. */
  function ParseNat(s: string): nat
    requires AllDigits(s)
  {
    if |s| == 0 then 0
    else ParseNat(s[..|s| - 1]) * 10 + DigitValue(s[|s| - 1])
  }

  /** Rendering then reading a natural number gives it back. */
  lemma {:induction false} ParseNatToString(n: nat)
    ensures ParseNat(NatToString(n)) == n
    decreases n
  {
    var s := NatToString(n);
    if n >= 10 {
      ParseNatToString(n / 10);
      assert s[..|s| - 1] == NatToString(n / 10);
    }
  }

  /** `str` is injective on the natural numbers. */
  lemma NatToStringInjective(m: nat, n: nat)
    requires NatToString(m) == NatToString(n)
    ensures m == n
  {
    ParseNatToString(m);
    ParseNatToString(n);
  }

  /** A larger number never has fewer digits. */
  lemma {:induction false} DigitsMonotone(m: nat, n: nat)
    requires m <= n
    ensures |NatToString(m)| <= |NatToString(n)|
    decreases n
  {
    if m >= 10 {
      DigitsMonotone(m / 10, n / 10);
    }
  }

  // ---------------------------------------------------------------------
  // Alignment
  // ---------------------------------------------------------------------

  function Spaces(k: nat): (r: string)
    ensures |r| == k
    ensures forall i :: 0 <= i < k ==> r[i] == ' '
  {
    seq(k, _ => ' ')
  }

  /** Right-aligning `s` in a field of minimum width `w` (`'{:wd}'` for a number). */
  function PadLeft(s: string, w: nat): (r: string)
    ensures |r| == if |s| < w then w else |s|
    ensures r[|r| - |s|..] == s
    ensures forall i :: 0 <= i < |r| - |s| ==> r[i] == ' '
  {
    if |s| < w then Spaces(w - |s|) + s else s
  }

  /** `s.lstrip(' ')`: the text after the leading spaces. */
  function TrimLeadingSpaces(s: string): (r: string)
    ensures |r| <= |s| && r == s[|s| - |r|..]
    ensures |r| > 0 ==> r[0] != ' '
    ensures forall i :: 0 <= i < |s| - |r| ==> s[i] == ' '
    decreases |s|
  {
    if |s| > 0 && s[0] == ' ' then TrimLeadingSpaces(s[1..]) else s
  }

  /** Stripping the alignment undoes right-aligning a text that does not
      start with a space. */
  lemma TrimPadLeft(s: string, w: nat)
    requires |s| > 0 && s[0] != ' '
    ensures TrimLeadingSpaces(PadLeft(s, w)) == s
  {
    var p := PadLeft(s, w);
    var r := TrimLeadingSpaces(p);
    var k := |p| - |s|;
    assert p[k..] == s;
    assert p[k] == s[0];
  }

  // ---------------------------------------------------------------------
  // Joining and splitting on a one-character separator
  // ---------------------------------------------------------------------

  /** `sep.join(xs)`: it starts with the first element. */
  function Join(xs: seq<string>, sep: char): (r: string)
    ensures |xs| > 0 ==> |xs[0]| <= |r| && r[..|xs[0]|] == xs[0]
  {
    if |xs| == 0 then ""
    else if |xs| == 1 then xs[0]
    else xs[0] + [sep] + Join(xs[1..], sep)
  }

  /** The first position of `c` in `s`. */
  function IndexOf(s: string, c: char): (i: nat)
    requires c in s
    ensures i < |s| && s[i] == c
    ensures c !in s[..i]
  {
    if s[0] == c then 0 else 1 + IndexOf(s[1..], c)
  }

  /** `s.split(sep)`: the pieces between separators, never an empty list. */
  function Split(s: string, sep: char): (r: seq<string>)
    ensures |r| >= 1
    decreases |s|
  {
    if sep !in s then [s]
    else
      var i := IndexOf(s, sep);
      [s[..i]] + Split(s[i + 1..], sep)
  }

  lemma IndexOfAfterPrefix(a: string, c: char, b: string)
    requires c !in a
    ensures c in a + [c] + b
    ensures IndexOf(a + [c] + b, c) == |a|
  {
    var s := a + [c] + b;
    assert s[|a|] == c;
  }

  /** Splitting at the first separator: the piece before it, then the rest. */
  lemma SplitFirst(a: string, sep: char, b: string)
    requires sep !in a
    ensures Split(a + [sep] + b, sep) == [a] + Split(b, sep)
  {
    var s := a + [sep] + b;
    IndexOfAfterPrefix(a, sep, b);
    assert s[..|a|] == a;
    assert s[|a| + 1..] == b;
  }

  /** Splitting a joined list recovers the list when no element holds the
      separator. */
  lemma {:induction false} SplitJoin(xs: seq<string>, sep: char)
    requires |xs| >= 1
    requires forall k :: 0 <= k < |xs| ==> sep !in xs[k]
    ensures Split(Join(xs, sep), sep) == xs
    decreases |xs|
  {
    if |xs| == 1 {
      assert Join(xs, sep) == xs[0];
    } else {
      var rest := Join(xs[1..], sep);
      assert Join(xs, sep) == xs[0] + [sep] + rest;
      SplitFirst(xs[0], sep, rest);
      SplitJoin(xs[1..], sep);
      assert xs == [xs[0]] + xs[1..];
    }
  }
}

=== FILE: worker.dfy ===
/** The image geometry `Worker.__init__` derives from its configuration
    (deeplio/models/worker.py): the size of the cropped lidar image the model
    sees and the number of input channels. Everything else the constructor
    does (folders, timestamps, loggers, the tensorboard writer) is I/O. */
module WorkerGeometry {
  import opened Wrappers
  import opened Config

  /** The derived geometry. Python ints and floats are both held as
      numbers: the arithmetic is the same, only the printed type differs. */
  datatype Geometry = Geometry(
    cropHeight: real, cropWidth: real,
    imHeight: real, imWidth: real,
    imHeightModel: real, imWidthModel: real,
    nChannels: nat)

  /** The configured crop factors, `[0, 0]` when absent. */
  function CropCfg(datasetCfg: Cfg): CfgValue {
    Get(datasetCfg, "crop-factors", ListV([IntV(0), IntV(0)]))
  }

  /** `crop_height, crop_width = curr_dataset_cfg.get('crop-factors', [0, 0])`:
      the value must be iterable (`TypeError`) and yield exactly two items
      (`ValueError`); the items themselves are not checked here. */
  function CropFactors(datasetCfg: Cfg): (r: Result<(CfgValue, CfgValue)>)
    ensures "crop-factors" !in datasetCfg ==> r == Ok((IntV(0), IntV(0)))
    ensures Items(CropCfg(datasetCfg)).Err? ==> r == Err(TypeError)
    ensures Items(CropCfg(datasetCfg)).Ok? && |Items(CropCfg(datasetCfg)).value| != 2 ==> r == Err(ValueError)
    ensures r.Ok? <==> Items(CropCfg(datasetCfg)).Ok? && |Items(CropCfg(datasetCfg)).value| == 2
    ensures r.Ok? ==> [r.value.0, r.value.1] == Items(CropCfg(datasetCfg)).value
  {
    var items :- Items(CropCfg(datasetCfg));
    if |items| != 2 then Err(ValueError) else Ok((items[0], items[1]))
  }

  /** `im - (2 * crop)`: both operands must be numbers, anything else makes
      the subtraction (or the doubling) a `TypeError`. */
  function ModelDim(im: CfgValue, crop: CfgValue): (r: Result<real>)
    ensures r.Ok? <==> AsNumber(im).Ok? && AsNumber(crop).Ok?
    ensures r.Ok? ==> r.value + 2.0 * AsNumber(crop).value == AsNumber(im).value
    ensures r.Err? ==> r.error == TypeError
  {
    var c :- AsNumber(crop);
    var h :- AsNumber(im);
    Ok(h - 2.0 * c)
  }

  /** `n_channels`: the number of configured channels, except that six
      channels (points with their normals) count as three. */
  function ChannelCount(configured: nat): (n: nat)
    ensures n != 6
    ensures n <= configured
  {
    if configured == 6 then 3 else configured
  }

  /** The channel count changes only for six channels, and three model
      channels come from exactly three or six configured ones. */
  lemma ChannelCountPreimage(configured: nat)
    ensures ChannelCount(configured) == configured <==> configured != 6
    ensures ChannelCount(configured) == 3 <==> configured == 3 || configured == 6
  {
  }

  /** The geometry part of `Worker.__init__`, in the order the source works:
      unpack the crop factors, read the image height and width, compute the
      model's image size, then count `cfg['channels']`. */
  function NewGeometry(cfg: Cfg, datasetCfg: Cfg): (r: Result<Geometry>)
    ensures CropFactors(datasetCfg).Err? ==> r == Err(CropFactors(datasetCfg).error)
    ensures CropFactors(datasetCfg).Ok? && "image-height" !in datasetCfg ==> r == Err(KeyError("image-height"))
    ensures CropFactors(datasetCfg).Ok? && "image-height" in datasetCfg && "image-width" !in datasetCfg ==>
              r == Err(KeyError("image-width"))
    ensures CropFactors(datasetCfg).Ok? && "image-height" in datasetCfg && "image-width" in datasetCfg
            && (ModelDim(datasetCfg["image-height"], CropFactors(datasetCfg).value.0).Err?
                || ModelDim(datasetCfg["image-width"], CropFactors(datasetCfg).value.1).Err?) ==>
              r == Err(TypeError)
    ensures CropFactors(datasetCfg).Ok? && "image-height" in datasetCfg && "image-width" in datasetCfg
            && ModelDim(datasetCfg["image-height"], CropFactors(datasetCfg).value.0).Ok?
            && ModelDim(datasetCfg["image-width"], CropFactors(datasetCfg).value.1).Ok? ==>
              && ("channels" !in cfg ==> r == Err(KeyError("channels")))
              && ("channels" in cfg && Len(cfg["channels"]).Err? ==> r == Err(TypeError))
    ensures r.Ok? <==>
              && CropFactors(datasetCfg).Ok?
              && "image-height" in datasetCfg && "image-width" in datasetCfg
              && ModelDim(datasetCfg["image-height"], CropFactors(datasetCfg).value.0).Ok?
              && ModelDim(datasetCfg["image-width"], CropFactors(datasetCfg).value.1).Ok?
              && "channels" in cfg && Len(cfg["channels"]).Ok?
    ensures r.Ok? ==> var g := r.value;
              && g.cropHeight == AsNumber(CropFactors(datasetCfg).value.0).value
              && g.cropWidth == AsNumber(CropFactors(datasetCfg).value.1).value
              && g.imHeight == AsNumber(datasetCfg["image-height"]).value
              && g.imWidth == AsNumber(datasetCfg["image-width"]).value
              && g.imHeightModel + 2.0 * g.cropHeight == g.imHeight
              && g.imWidthModel + 2.0 * g.cropWidth == g.imWidth
              && g.nChannels == ChannelCount(Len(cfg["channels"]).value)
  {
    var crop :- CropFactors(datasetCfg);
    var h :- Require(datasetCfg, "image-height");
    var w :- Require(datasetCfg, "image-width");
    var hm :- ModelDim(h, crop.0);
    var wm :- ModelDim(w, crop.1);
    var channels :- Require(cfg, "channels");
    var n :- Len(channels);
    Ok(Geometry(AsNumber(crop.0).value, AsNumber(crop.1).value, AsNumber(h).value, AsNumber(w).value,
                hm, wm, ChannelCount(n)))
  }

  /** Without crop factors the model sees the whole image; with
      non-negative ones it sees an image no larger, and strictly smaller in a
      dimension exactly when that dimension is cropped. */
  lemma CropShrinks(cfg: Cfg, datasetCfg: Cfg)
    requires NewGeometry(cfg, datasetCfg).Ok?
    ensures var g := NewGeometry(cfg, datasetCfg).value;
            && ("crop-factors" !in datasetCfg ==> g.imHeightModel == g.imHeight && g.imWidthModel == g.imWidth)
            && (g.cropHeight >= 0.0 ==> (g.imHeightModel < g.imHeight <==> g.cropHeight > 0.0))
            && (g.cropWidth >= 0.0 ==> (g.imWidthModel < g.imWidth <==> g.cropWidth > 0.0))
  {
  }
}

=== FILE: wrappers.dfy ===
/** Option and Result for the model, and the Python exception kinds that the
    modelled code can raise. An operation that raises in Python returns `Err`
    here, carrying the kind of exception it would raise. */
module Wrappers {

  /** The exception classes the modelled code can end in. */
  datatype Exception =
    | KeyError(key: string)       // a required configuration key is missing
    | IndexError                  // indexing past the end of a list or tensor dimension
    | TypeError                   // a value of the wrong kind (calling or subscripting None, len of an int, ...)
    | ValueError                  // tuple unpacking of the wrong length, rejected sizes
    | AttributeError              // attribute lookup on None
    | RuntimeError                // a tensor shape the framework refuses
    | NotImplementedError         // an unsupported fusion type
    | ZeroDivisionError           // division by a zero count

  datatype Option<+T> = None | Some(value: T)

  datatype Result<+T> = Ok(value: T) | Err(error: Exception) {

    predicate IsFailure() {
      Err?
    }

    function PropagateFailure<U>(): Result<U>
      requires Err?
    {
      Err(error)
    }

    function Extract(): T
      requires Ok?
    {
      value
    }
  }
}
